=== FILE: README.md ===
# carta core in Dafny

A model of the core of carta, a Win32 desktop application, with proofs about it.

- **`ice` scheduler.** The core is `ice`'s coroutine scheduler. Producers push `schedule` nodes onto an intrusive lock-free chain, newest first. The single consumer claims the whole chain at once and reverses it in place, then resumes the nodes in the order they were posted. `ice::context` wraps this in a `run` loop that sleeps while the chain is empty and returns once it is stopped.
- **Smaller sequential pieces:**
  - the `scope_exit` guard;
  - the status-bar message stack;
  - the pure parts of the dialog template: icon sizes, the AFX_DIALOG_LAYOUT resource and message dispatch;
  - the application's resize arithmetic, error text and command dispatch.

Modules follow the source files:

| module | file | what it holds |
|---|---|---|
| `Base` | base.dfy | `Option`, `Reverse`, `Distinct` and facts about them |
| `Scheduler` | scheduler.dfy | src/ice/scheduler.hpp. The abstract chain is a head-first `seq`. The concrete chain is a map from each node to its `next` link, plus `head_`. `IsChain` relates the two. `Acquire` and `Process` are methods that walk the links with loop invariants. |
| `Context` | context.dfy | `run` as a state machine stepped one atomic action at a time: an `acquire`, a read of the stop flag, a resume. Posts and `stop` are events that may come between any two steps. |
| `Utility` | utility.dfy | `scope_exit`: one handler, any number of guard objects built by moves |
| `Status` | status.dfy | the `Status` stack, with the text on the bar as a field |
| `Dialog` | dialog.dfy | `GetIconSize`, layout decoding, `Proc`, the UI `Schedule` awaiter |
| `Application` | application.dfy | `OnSize`, `ShowError`, `OnCommand`, `OnMenu`, `OnAccelerator` |

Resumption is modelled as appending the node's id to a trace. Threads are opaque ids. Every Win32 call is either an input (rectangles, thread ids, system metrics) or an output (the placement of each `DeferWindowPos` call, a posted message, the text a message box shows).

The source's `assert` in `post` is modelled as a precondition: the node is non-null. The `assert` on the shape of the layout resource is kept as the predicate `WellFormedLayout`, under which decoding round-trips; decoding itself only requires that the loop reads inside the resource, as in a release build.

## Model

| member | source | states |
|---|---|---|
| Scheduler.Push | src/ice/scheduler.hpp:86-92 | on the abstract chain, a post puts the node in front of the old chain, and in posting order it comes last |
| Scheduler.Post | src/ice/scheduler.hpp:86-92 | the node becomes the head, its `next` is the previous head, and no other node's link changes |
| Scheduler.PostPushesFront | src/ice/scheduler.hpp:86-92 | posting a node that is not queued grows the linked chain by exactly that node at the front |
| Scheduler.Claim | src/ice/scheduler.hpp:71-84 | with the fast path for chains of at most one node, the claimed batch is the chain reversed (the same nodes, the same count) |
| Scheduler.ClaimIsFifo | src/ice/scheduler.hpp:71-92 | posting nodes one by one and then claiming gives them back in posting order |
| Scheduler.ReverseInPlace | src/ice/scheduler.hpp:76-83 | the in-place loop relinks the chain `xs` into the chain `Reverse(xs)`; only the links of nodes in `xs` change |
| Scheduler.Acquire | src/ice/scheduler.hpp:71-84 | afterwards the shared head is null, the returned link starts the claimed chain in posting order, and nodes outside it keep their links |
| Scheduler.Process | src/ice/scheduler.hpp:94-101 | every claimed node is resumed exactly once, in posting order, even when a resumed computation posts to the same scheduler again, any number of times before it suspends (rewriting those nodes' `next` and moving `head_`); afterwards `head_` holds exactly the nodes re-posted meanwhile, newest first, and is null only when there were none |
| Scheduler.AwaitSuspend | src/ice/scheduler.hpp:34-37 | suspending stores the awaiting handle and then posts the awaiter's node |
| Scheduler.CoAwait | src/ice/scheduler.hpp:30-44 | a ready awaiter leaves the scheduler alone; otherwise its node heads the chain and its resume resumes the suspended handle |
| Scheduler.SuspendThenResume | src/ice/scheduler.hpp:34-44 | the handle that `resume` resumes is the one that suspended |
| Context.Stop | src/ice/context.hpp:42-45 | `stop(flag)` sets the flag to `flag`, so `stop(false)` clears it; the queue and `run` are untouched |
| Context.Post | src/ice/context.hpp:47-50 | the queue changes exactly as for `scheduler::post`, and the node joins the end of what is pending |
| Context.Acquire | src/ice/context.hpp:18-25 | an `acquire` at the top of the loop or in the wait predicate claims the whole queue; a non-empty batch is drained without the stop flag being read, and an empty one leads to a read of the flag |
| Context.CheckStop | src/ice/context.hpp:19-27 | the read after an empty acquire: before waiting, a set flag returns and a clear one waits; in the wait predicate, a set flag goes back to the check before waiting and a clear one keeps waiting; the queue is not looked at |
| Context.ResumeNext | src/ice/context.hpp:30-34 | the first node of the batch is resumed and the rest remains; nothing is lost or reordered (that `next` is read before the resume is shown on the links by `Scheduler.Process`) |
| Context.Step | src/ice/context.hpp:12-36 | every step of `run` conserves resumed plus pending, keeps the stop flag, and after the first step keeps the published thread |
| Context.StepRules | src/ice/context.hpp:12-36 | the thread id is published first; `run` returns only from the check before waiting, on a set flag, and that check is reached only after an empty acquire or a wait predicate that saw the flag set; a non-empty acquire is drained whatever the flag; a batch is resumed one node per step, front to back |
| Context.ExecConserves | src/ice/context.hpp:12-50 | over any interleaving of posts, stops and steps, resumed plus pending is what was there plus what was posted, in order |
| Context.RunIsFifo | src/ice/context.hpp:12-36 | from a fresh context the resumed trace is a prefix of the posted nodes (FIFO, nothing lost), and with distinct posts nothing is resumed twice |
| Context.PublishedThread | src/ice/context.hpp:13 | before its first step no thread is published; afterwards the published id is `run`'s own |
| Context.IsCurrentExactly | src/ice/context.hpp:38-40 | `is_current` holds exactly for `run`'s thread once `run` has started |
| Context.ReturnLeavesLatePosts | src/ice/context.hpp:18-23 | when `run` returns, the trace is every node posted except those still queued, which are never resumed |
| Context.NoAcquireKeepsQueue | src/ice/context.hpp:19-27 | after an empty acquire and until the next acquire, the steps of `run` only read the flag: nothing is resumed and the queue gathers every node posted meanwhile, in posting order |
| Context.LatePostsStayQueued | src/ice/context.hpp:18-27 | from `run`'s final empty acquire on, and so when it returns, the trace is exactly what was posted before that acquire and the queue holds exactly what was posted after it, in posting order |
| Context.LatePostIsAbandoned | src/ice/context.hpp:18-23 | a node posted between the final empty acquire and the stop read is never resumed |
| Context.ImmediateReturnIsDrained | src/ice/context.hpp:18-23 | when nothing comes between `run`'s final acquire and the stop read, it returns having resumed every node posted, in posting order |
| Context.WithdrawnStopKeepsWaiting | src/ice/context.hpp:19-27 | a `stop(false)` between the wait predicate's read of the flag and the read before waiting sends `run` back to waiting |
| Context.DrainOne | src/ice/context.hpp:30-34 | a draining step resumes the next node and keeps the state reached once the batch is done |
| Context.DrainSteps | src/ice/context.hpp:30-34 | draining a batch takes one step per node, and later steps continue from the drained state |
| Context.StoppedEmptyReturns | src/ice/context.hpp:18-23 | from the top of the loop with stop set and nothing queued, `run` returns after an empty acquire and a read of the flag, and stays returned |
| Context.StopDrainsNonEmpty | src/ice/context.hpp:16-35 | from the top of the loop with stop set and a non-empty queue, and nothing else happening, `run` resumes the whole queue in posting order and then returns |
| Context.StopDrainsThenReturns | src/ice/context.hpp:16-35 | from the top of its loop with stop set, and nothing else happening, `run` still resumes everything queued, in posting order, within queue length + 4 steps, then returns |
| Context.CoAwait | src/ice/scheduler.hpp:30-37 | awaiting a context either goes ahead at once with the context unchanged, or makes the node the last pending one |
| Context.ScheduleReadyOnOwner | src/ice/context.hpp:38-40 | on a running context an awaiter is ready exactly when posting is not forced and the caller is `run`'s thread |
| Utility.Construct | src/ice/utility.hpp:9-10 | a new guard is armed and holds the one pending handler call |
| Utility.MoveConstruct | src/ice/utility.hpp:12-14 | the new guard takes the source's flag and the source is disarmed, so the pending calls are conserved |
| Utility.Destroy | src/ice/utility.hpp:19-23 | destruction invokes the handler exactly when the guard is armed |
| Utility.ApplyKeepsOnce | src/ice/utility.hpp:12-23 | every move or destruction keeps the handler either pending in exactly one live guard or already run once |
| Utility.RunKeepsOnce | src/ice/utility.hpp:12-23 | the same over any sequence of moves and destructions |
| Utility.HandlerRunsOnce | src/ice/utility.hpp:9-33 | starting from one `on_scope_exit`, the handler never runs twice, and once every guard is gone it has run exactly once |
| Status.FirstNotSpace | src/status.hpp:26 | `find_first_not_of(" \f\n\r\t\v")` gives the first non-space position, or `npos` exactly for a blank text |
| Status.LastVisible | src/status.hpp:24-32 | finds the newest non-blank entry; every newer entry is blank |
| Status.Update | src/status.hpp:24-32 | the loop from the newest entry shows the newest non-blank entry, or "" when every entry is blank |
| Status.NewStatus | src/status.hpp:73-75 | a new status bar has an empty stack and shows "" |
| Status.Push | src/status.hpp:37-41 | a new `State` appends its text under a fresh token, leaving the older entries as they were; the bar is updated |
| Status.Erase | src/status.hpp:48-52 | destroying a `State` removes exactly its own entry; the others keep their order and text |
| Status.SetText | src/status.hpp:54-58 | `Set` replaces its own entry's text and no other entry |
| Status.Clear | src/status.hpp:60-64 | `Clear` makes its own entry empty and changes no other entry; the stack keeps its tokens and length, and the bar is updated |
| Status.BlankEntryInvisible | src/status.hpp:24-32 | a blank entry never shows: removing it does not change what the bar shows |
| Status.ClearFallsBack | src/status.hpp:60-64 | after `Clear` the bar shows what it would show had the entry been erased, i.e. the newest other non-blank entry |
| Status.PushShows | src/status.hpp:37-41 | a new non-blank message shows at once; a blank one leaves the bar as it was |
| Status.PushThenErase | src/status.hpp:37-52 | constructing and then destroying a `State` restores the stack and the bar |
| Dialog.BigIsTwiceSmall | src/dialog.hpp:96-105 | at the four listed DPIs the big icon is exactly twice the small one |
| Dialog.GetIconSize | src/dialog.hpp:95-107 | at 96/120/144/192 DPI the small icon is 16 pixels and the big one 32 pixels, scaled by DPI/96; any other DPI gives the system metric |
| Dialog.EncodeLayout | src/dialog.hpp:137-146 | the resource that lays out children: a leading 0, then four words per child in the order movex, movey, sizex, sizey |
| Dialog.DecodeLayout | src/dialog.hpp:130-149 | for any resource the loop reads within bounds, decoding gives `size / 4` children, child `i` taking words `1+4i` to `4+4i`; for a resource the assertion accepts, re-encoding gives back the resource |
| Dialog.WellFormedReadsInside | src/dialog.hpp:132-137 | every resource the debug assertion accepts is read within its bounds |
| Dialog.DecodeRoundTrip | src/dialog.hpp:137-146 | children read from a well-formed resource encode back to it |
| Dialog.LoadLayout | src/dialog.hpp:128-151 | with a layout resource, `children_` holds exactly the decoded children, since it is cleared first; without one, it is unchanged |
| Dialog.EncodeInjective | src/dialog.hpp:137-146 | a layout is determined by its resource |
| Dialog.Proc | src/dialog.hpp:258-298 | `WM_INITDIALOG` stores the pointer and posts `WM_DIALOG_CREATE`; nothing is handled before that; `WM_DIALOG_RESUME` resumes a non-zero `lparam` and answers TRUE; messages outside the handled set are forwarded |
| Dialog.InitThenCreate | src/dialog.hpp:259-266 | the message posted on `WM_INITDIALOG` runs `OnDialogCreate` once the pointer is stored |
| Dialog.CreateIgnoresLparam | src/dialog.hpp:264-266 | the `WM_DIALOG_CREATE` handler does the same whatever `lparam` carries |
| Dialog.CommandSplitsWparam | src/dialog.hpp:277-278 | `WM_COMMAND` passes the high word of `wparam` as the code and the low word as the id |
| Dialog.DrawItemTruncatesWparam | src/dialog.hpp:281-282 | `WM_DRAWITEM` passes `wparam` cut to 32 bits by `static_cast<UINT>`: the high half of a 64-bit `wparam` is dropped |
| Dialog.UiCoAwaitNeverResumes | src/dialog.hpp:43-45 | as written, the posted message runs `OnDialogCreate` again instead of resuming the coroutine |
| Dialog.UiCoAwaitFixedResumes | src/dialog.hpp:285-289 | with the correction, the posted message resumes exactly the suspended coroutine and answers TRUE |
| Application.CDiv | src/main.cpp:162 | C++ integer division truncates toward zero |
| Application.OnSize | src/main.cpp:154-170 | the preview's new width is its height × 210 / 297, rounded down; its right edge, top and height stay; the table loses exactly the width the preview gains and keeps its height and position |
| Application.OnSizeIdempotent | src/main.cpp:154-170 | a second resize with the resulting rectangles changes nothing |
| Application.ErrorText | src/main.cpp:54-58 | the text `ShowError` shows: `info` alone for an empty detail, otherwise `info`, a blank line, then the detail |
| Application.ErrorTextInjective | src/main.cpp:54-58 | different details give different messages |
| Application.OnCommand | src/main.cpp:188-209 | code 0 goes to `OnMenu`, code 1 to `OnAccelerator`, any other code is not handled; since `OnMenu` (its one case commented out) and `OnAccelerator` handle nothing, no command is handled |
| Application.CommandAnsweredFalse | src/dialog.hpp:277-278 | every `WM_COMMAND` that reaches the application's dialog is answered FALSE |

## Left out

- The atomics, memory orders, mutex and condition variable of `ice::context`. They are not modelled: each operation is one sequential step. A notification changes no state. A step taken while waiting re-runs the wait predicate.
- Context.StepRules: a waiting `run` may re-evaluate its predicate at any step, which covers every wakeup the source can have. A wakeup lost because `post` and `stop` notify without the mutex, leaving `run` blocked, is not represented.
- The coroutine machinery (`coroutine_handle`, `ice::task`, `detach`). A resume is an entry in a trace, and a handle is a number.
- Scheduler.Post: the compare-and-swap retry loop is not modelled. `compare_exchange_weak` may fail spuriously and repeat the loop; the model goes straight to the state that the one successful exchange leaves.
- The `Status` mutex and `SendMessage`. The text on the bar is a field of the state. A list iterator is a numeric token.
- Win32 and GDI calls: window creation, rectangles, `DeferWindowPos`, the registry, `MessageBox`, `SetIcon`/`LoadImage`, `OnDrawItem`'s drawing. They appear only as inputs and outputs.
- `OnDialogSize`, `OnDialogGetMinMaxInfo` and DPI scaling, because they use double-precision floating point.
- The handlers `OnDialogCreate` calls after decoding, and those of `WM_CLOSE`, `WM_DESTROY`, `WM_NOTIFY` and `WM_DRAWITEM`. These include `OnNotify`, `OnGetDispInfo`, `OnCacheHint` and `OnFindItem`. `Proc` is modelled only as far as the action it picks.
- `OnCreate`'s image loading (file I/O, libjpeg-turbo) and fmt formatting, which are foreign calls.
- src/table.hpp is not part of this model, since it is a thin wrapper over ListView macros.
- Application.OnSize: `LONG` arithmetic is unbounded here. The 32-bit overflow of `height * 210` for preview heights above about ten million pixels is not modelled.
- Dialog.DecodeLayout: takes the resource as a sequence of words. The truncation of `SizeofResource`'s byte count to whole words is not modelled. A resource of fewer than four words, or whose word count is not a multiple of four, is decoded as a release build decodes it, whatever its leading word. Only a count that is a positive multiple of four is excluded by the precondition, because there the loop would read one word past the data. The round trip is promised only for a resource the debug assertion accepts.
- Context.Post: the abstract queue accepts a node that is still pending and then holds it twice, so `ExecConserves`, `RunIsFifo` and the lemmas built on them speak of the model, not of the source, for such a post. The source's chain would close into a cycle, and `run`'s drain would never end, or would skip and repeat nodes when the re-posted node is in the batch being drained. The Context theorems assume no node is posted while it is still pending, as the `Scheduler` ones require outright.
- Scheduler.PostPushesFront: requires that the node is not already queued. The source asserts only that it is non-null and never checks this. Re-posting a queued node turns the chain into a cycle.
- Scheduler.Acquire: requires that the links from the head form a proper chain that visits no node twice. That holds only while no queued node is re-posted.
- Scheduler.Process: requires the same proper chain, and requires that the computations it resumes post no node still waiting in the batch and no node twice. The source checks neither; either would close a chain into a cycle that the drain loops would not leave. Posts to another scheduler made by a resumed computation are not modelled.
- Scheduler.Resume carries no contract of its own. `Scheduler.SuspendThenResume` states what it resumes.

## Findings

| source | as written | input that shows it | evidently intended | confidence | as-written member | corrected member |
|---|---|---|---|---|---|---|
| src/dialog.hpp:43-45 | `Schedule::await_suspend` posts `WM_DIALOG_CREATE` with the coroutine address in `lparam` | awaiting `Ui()` from any thread other than the window's; `Proc` answers the posted message by running `OnDialogCreate` again, whose dispatch ignores `lparam`, and the coroutine is never resumed | post `WM_DIALOG_RESUME`, whose handler resumes the coroutine at `lparam` | high, not executed | Dialog.UiCoAwaitNeverResumes | Dialog.UiCoAwaitFixedResumes |

=== FILE: application.dfy ===
/** The pure parts of `Application` in main.cpp: the resize arithmetic that
    keeps the preview at the A4 portrait ratio 210:297, the composition of
    error text, and command dispatch. Window calls are left out: the
    rectangles read from the controls are inputs and the `DeferWindowPos`
    requests are outputs. */
module Application {
  import opened Base
  import Dialog

  /** A `RECT`. `LONG` arithmetic is modelled on unbounded integers. */
  datatype Rect = Rect(left: int, top: int, right: int, bottom: int)

  function Width(r: Rect): int { r.right - r.left }
  function Height(r: Rect): int { r.bottom - r.top }

  /** The arguments of one `DeferWindowPos` call; with `SWP_NOMOVE` the
      position is ignored. */
  datatype Placement = Placement(x: int, y: int, cx: int, cy: int, noMove: bool)

  /** C++ `/` on integers: the quotient truncated toward zero. */
  function CDiv(a: int, b: int): (q: int)
    requires b > 0
    ensures a >= 0 ==> q * b <= a < (q + 1) * b
    ensures a < 0 ==> (q - 1) * b < a <= q * b
  {
    if a >= 0 then a / b else -((-a) / b)
  }

  /** The preview width for a preview height: height * 210 / 297 in `LONG`
      arithmetic. */
  function PreviewWidth(height: int): int
  {
    CDiv(height * 210, 297)
  }

  /** `Application::OnSize`: the preview takes the width that matches its
      height at 210:297, keeping its right edge, top and height; the table
      gives up exactly the width the preview gains and keeps its height and
      position. `table` and `preview` are the two controls' rectangles, the
      preview's in client coordinates. Returns the table's and the
      preview's placements. */
  function OnSize(table: Rect, preview: Rect): (r: (Placement, Placement))
    ensures r.1.cx == PreviewWidth(Height(preview))
    ensures Height(preview) >= 0 ==> r.1.cx * 297 <= Height(preview) * 210 < (r.1.cx + 1) * 297
    ensures r.1.x + r.1.cx == preview.right && r.1.y == preview.top && r.1.cy == Height(preview) && !r.1.noMove
    ensures r.0.cx + r.1.cx == Width(table) + Width(preview)
    ensures r.0.cy == Height(table) && r.0.noMove
  {
    var dx := PreviewWidth(Height(preview)) - Width(preview);
    var tableAt := Placement(0, 0, Width(table) - dx, Height(table), true);
    var previewAt := Placement(preview.left - dx, preview.top, Width(preview) + dx, Height(preview), false);
    (tableAt, previewAt)
  }

  /** Resizing twice changes nothing the second time: the preview already
      has the width that matches its height. */
  lemma OnSizeIdempotent(table: Rect, preview: Rect)
    ensures var (t, p) := OnSize(table, preview);
      OnSize(Rect(table.left, table.top, table.left + t.cx, table.top + t.cy),
             Rect(p.x, p.y, p.x + p.cx, p.y + p.cy)) == (t, p)
  {
  }

  /** The text of `ShowError`: `info` alone when `text` is empty, otherwise
      `info`, a blank line and `text`. */
  function ErrorText(info: string, text: string): (r: string)
    ensures |r| == if text == [] then |info| else |info| + 4 + |text|
    ensures r[..|info|] == info
    ensures text != [] ==> r[|info|..|info| + 4] == "\r\n\r\n" && r[|info| + 4..] == text
  {
    if text == [] then info else info + "\r\n\r\n" + text
  }

  /** The detail can be read back from the composed text: different
      details give different messages. */
  lemma ErrorTextInjective(info: string, a: string, b: string)
    requires ErrorText(info, a) == ErrorText(info, b)
    ensures a == b
  {
    var r := ErrorText(info, a);
    if a != [] && b != [] {
      assert a == r[|info| + 4..] == b;
    }
  }

  /** `ShowError`: the message box appears when there is no window yet or
      the window still exists; the result is the text it shows. */
  function ShowError(info: string, text: string, hasWindow: bool, isWindow: bool): (shown: Option<string>)
    ensures shown.Some? <==> !hasWindow || isWindow
    ensures shown.Some? ==> shown.value == ErrorText(info, text)
  {
    if !hasWindow || isWindow then Some(ErrorText(info, text)) else None
  }

  /** `OnMenu`: no menu item is handled (the one case is commented out). */
  function OnMenu(id: nat): bool
  {
    false
  }

  /** `OnAccelerator`: no accelerator is handled. */
  function OnAccelerator(id: nat): bool
  {
    false
  }

  /** `OnCommand`: notification code 0 (a menu) goes to `OnMenu`, code 1
      (an accelerator) to `OnAccelerator`, and any other code is not
      handled; as written, nothing is handled at all. */
  function OnCommand(code: nat, id: nat): (handled: bool)
    ensures code == 0 ==> handled == OnMenu(id)
    ensures code == 1 ==> handled == OnAccelerator(id)
    ensures !handled
  {
    if code == 0 then OnMenu(id)
    else if code == 1 then OnAccelerator(id)
    else false
  }

  /** Every `WM_COMMAND` reaching the application's dialog is answered
      FALSE: the window procedure hands it to `OnCommand` with the code
      and id from `wparam`, and `OnCommand` handles nothing. */
  lemma CommandAnsweredFalse(userData: nat, wparam: nat, lparam: nat)
    requires userData != 0
    ensures var (action, reply) := Dialog.Proc(userData, Dialog.WM_COMMAND, wparam, lparam);
      action.Command? && reply == Dialog.FromHandler && !OnCommand(action.code, action.id)
  {
  }
}

=== FILE: base.dfy ===
/** Small helpers shared by the model: an optional value, sequence reversal
    and distinctness. */
module Base {

  /** A value that may be absent (a null pointer, an unset thread id). */
  datatype Option<T> = None | Some(value: T)

  /** `s` read back to front. */
  function Reverse<T>(s: seq<T>): (r: seq<T>)
    ensures |r| == |s|
    ensures forall i :: 0 <= i < |s| ==> r[i] == s[|s| - 1 - i]
  {
    if s == [] then [] else Reverse(s[1..]) + [s[0]]
  }

  /** No element occurs twice. */
  predicate Distinct<T(==)>(s: seq<T>)
  {
    forall i, j :: 0 <= i < j < |s| ==> s[i] != s[j]
  }

  /** Reversing twice gives the sequence back. */
  lemma ReverseReverse<T>(s: seq<T>)
    ensures Reverse(Reverse(s)) == s
  {
    var r := Reverse(Reverse(s));
    assert |r| == |s|;
    forall i | 0 <= i < |s|
      ensures r[i] == s[i]
    {
    }
  }

  /** Reversal distributes over concatenation, swapping the operands. */
  lemma ReverseAppend<T>(a: seq<T>, b: seq<T>)
    ensures Reverse(a + b) == Reverse(b) + Reverse(a)
  {
    var l, r := Reverse(a + b), Reverse(b) + Reverse(a);
    assert |l| == |r|;
    forall i | 0 <= i < |l|
      ensures l[i] == r[i]
    {
      if i < |b| {
        assert r[i] == b[|b| - 1 - i];
      } else {
        assert r[i] == a[|a| - 1 - (i - |b|)];
      }
    }
  }

  /** Reversal neither adds nor drops nor duplicates an element. */
  lemma {:induction false} ReverseMultiset<T>(s: seq<T>)
    ensures multiset(Reverse(s)) == multiset(s)
  {
    if s != [] {
      ReverseMultiset(s[1..]);
      assert s == [s[0]] + s[1..];
    }
  }

  /** A sequence and its reverse are distinct together. */
  lemma ReverseDistinct<T>(s: seq<T>)
    ensures Distinct(Reverse(s)) <==> Distinct(s)
  {
    var r := Reverse(s);
    if Distinct(s) {
      forall i, j | 0 <= i < j < |r|
        ensures r[i] != r[j]
      {
        assert r[i] == s[|s| - 1 - i] && r[j] == s[|s| - 1 - j];
      }
    }
    if Distinct(r) {
      forall i, j | 0 <= i < j < |s|
        ensures s[i] != s[j]
      {
        assert s[i] == r[|s| - 1 - i] && s[j] == r[|s| - 1 - j];
      }
    }
  }

  /** A sequence is a prefix of itself extended. */
  lemma PrefixOfAppend<T>(a: seq<T>, b: seq<T>)
    ensures a <= a + b
  {
    assert (a + b)[..|a|] == a;
  }

  /** A prefix of a sequence without repetitions has none either. */
  lemma PrefixDistinct<T>(a: seq<T>, s: seq<T>)
    requires a <= s && Distinct(s)
    ensures Distinct(a)
  {
    forall i, j | 0 <= i < j < |a|
      ensures a[i] != a[j]
    {
      assert a[i] == s[i] && a[j] == s[j];
    }
  }

  /** In a sequence without repetitions, a middle part has none either and
      shares no element with what comes before it. */
  lemma DistinctMiddle<T>(a: seq<T>, p: seq<T>, b: seq<T>)
    requires Distinct(a + p + b)
    ensures Distinct(p)
    ensures forall n :: n in p ==> n !in a
  {
    var c := a + p + b;
    forall i, j | 0 <= i < j < |p|
      ensures p[i] != p[j]
    {
      assert p[i] == c[|a| + i] && p[j] == c[|a| + j];
    }
    forall n | n in p
      ensures n !in a
    {
      var j :| 0 <= j < |p| && p[j] == n;
      forall i | 0 <= i < |a|
        ensures a[i] != n
      {
        assert a[i] == c[i] && n == c[|a| + j];
      }
    }
  }
}

=== FILE: context.dfy ===
/** `ice::context`: a scheduler whose single consumer is the thread that
    calls `run`.

    `run` is modelled as a state machine stepped one atomic action at a
    time: publishing the thread id, one `acquire`, one read of the stop
    flag, one resume. The mutex, the condition variable and the memory
    orders are left out, so a notification changes no state and a blocked
    wait is a step that changes nothing. Producers and `stop` are separate
    events that may come between any two steps of `run`, in particular
    between an `acquire` and the stop read that follows it. The queue is
    the abstract head-first chain of the `Scheduler` module. */
module Context {
  import opened Base
  import Scheduler

  type NodeId = Scheduler.NodeId

  /** A thread id, as returned by `std::this_thread::get_id`. */
  type ThreadId = nat

  /** Where `run` is:
      - `Idle`: not started;
      - `Acquiring`: at the top of the outer loop, about to `acquire`;
      - `Checking`: the acquired chain was empty, about to read the stop
        flag before waiting;
      - `Waiting`: in the condition-variable wait, about to evaluate the
        predicate's `acquire`;
      - `WaitChecking`: the predicate's `acquire` was empty, about to read
        the stop flag;
      - `Draining(batch)`: resuming the rest of an acquired batch;
      - `Returned`. */
  datatype Pc = Idle | Acquiring | Checking | Waiting | WaitChecking | Draining(batch: seq<NodeId>) | Returned

  /** The context: its queue (head first), the stop flag, the published
      thread id, where `run` is, and the nodes resumed so far in order. */
  datatype Ctx = Ctx(queue: seq<NodeId>, stop: bool, thread: Option<ThreadId>, pc: Pc, resumed: seq<NodeId>)

  /** A freshly constructed context: nothing queued, not stopped, no thread. */
  const Init: Ctx := Ctx([], false, None, Idle, [])

  /** `is_current`: the caller is the thread that published itself in `run`. */
  predicate IsCurrent(c: Ctx, caller: ThreadId)
  {
    c.thread == Some(caller)
  }

  /** The nodes posted but not yet resumed, in the order they will be
      resumed: the rest of the batch being drained, then the queue in
      posting order. */
  function Pending(c: Ctx): seq<NodeId>
  {
    (if c.pc.Draining? then c.pc.batch else []) + Reverse(c.queue)
  }

  /** `stop(flag)`: sets the flag to `flag` (so `stop(false)` clears it) and
      wakes every waiter; nothing queued is touched. */
  function Stop(c: Ctx, flag: bool): (r: Ctx)
    ensures r.stop == flag
    ensures r.queue == c.queue && r.pc == c.pc && r.resumed == c.resumed && r.thread == c.thread
  {
    c.(stop := flag)
  }

  /** `context::post`: `scheduler::post` followed by a notification, which
      changes nothing but who is awake. The node joins the end of the
      pending nodes. */
  function Post(c: Ctx, n: NodeId): (r: Ctx)
    ensures r.queue == Scheduler.Push(c.queue, n)
    ensures r.stop == c.stop && r.pc == c.pc && r.resumed == c.resumed && r.thread == c.thread
    ensures Pending(r) == Pending(c) + [n]
  {
    c.(queue := Scheduler.Push(c.queue, n))
  }

  /** An `acquire` by `run`, at the top of the loop or inside the wait
      predicate: a non-empty batch is drained, without the stop flag being
      read at all; an empty one leads to a read of the flag. */
  function Acquire(c: Ctx): (r: Ctx)
    requires c.pc == Acquiring || c.pc == Waiting
    ensures r.queue == [] && r.resumed == c.resumed && r.thread == c.thread && r.stop == c.stop
    ensures c.queue != [] ==> r.pc == Draining(Reverse(c.queue))
    ensures c.queue == [] ==> r.pc == (if c.pc == Acquiring then Checking else WaitChecking)
    ensures Pending(r) == Reverse(c.queue)
  {
    var batch := Scheduler.Claim(c.queue);
    if batch != [] then c.(queue := [], pc := Draining(batch))
    else if c.pc == Acquiring then c.(queue := [], pc := Checking)
    else c.(queue := [], pc := WaitChecking)
  }

  /** A read of the stop flag after an empty `acquire`. Before waiting,
      a set flag makes `run` return and a clear one makes it wait. In the
      wait predicate, a set flag ends the wait and sends `run` back to the
      check before waiting, which reads the flag again; a clear one keeps
      it waiting. The queue is not looked at. */
  function CheckStop(c: Ctx): (r: Ctx)
    requires c.pc == Checking || c.pc == WaitChecking
    ensures r.queue == c.queue && r.resumed == c.resumed && r.thread == c.thread && r.stop == c.stop
    ensures r.pc == Returned <==> c.pc == Checking && c.stop
    ensures !c.stop ==> r.pc == Waiting
    ensures c.pc == WaitChecking && c.stop ==> r.pc == Checking
  {
    if !c.stop then c.(pc := Waiting)
    else if c.pc == Checking then c.(pc := Returned)
    else c.(pc := Checking)
  }

  /** Resume the first node of the batch being drained. The rest of the
      batch is what remains; that `next` is read before the resume, so a
      resumed node cannot disturb the rest, is shown on the links by
      `Scheduler.Process`, which walks the same loop. */
  function ResumeNext(c: Ctx): (r: Ctx)
    requires c.pc.Draining? && c.pc.batch != []
    ensures r.resumed == c.resumed + [c.pc.batch[0]] && r.pc == Draining(c.pc.batch[1..])
    ensures r.queue == c.queue && r.thread == c.thread && r.stop == c.stop
    ensures r.resumed + Pending(r) == c.resumed + Pending(c)
  {
    var b := c.pc.batch;
    assert c.resumed + Pending(c) == c.resumed + [b[0]] + (b[1..] + Reverse(c.queue));
    c.(resumed := c.resumed + [b[0]], pc := Draining(b[1..]))
  }

  /** One step of `run` on thread `self`: whatever it does, nothing
      pending is lost, duplicated or reordered, and only the first step
      touches the published thread id or the flag. What each step does is
      stated by `StepRules`. */
  function Step(c: Ctx, self: ThreadId): (r: Ctx)
    ensures c.pc != Idle ==> r.thread == c.thread
    ensures r.resumed + Pending(r) == c.resumed + Pending(c)
    ensures r.stop == c.stop
  {
    match c.pc
    case Idle => c.(thread := Some(self), pc := Acquiring)
    case Acquiring => Acquire(c)
    case Waiting => Acquire(c)
    case Checking => CheckStop(c)
    case WaitChecking => CheckStop(c)
    case Draining(batch) => if batch == [] then c.(pc := Acquiring) else ResumeNext(c)
    case Returned => c
  }

  /** The rules of `run`'s steps. */
  lemma StepRules(c: Ctx, self: ThreadId)
    // the first step publishes the thread id and does nothing else
    ensures c.pc == Idle ==> Step(c, self) == c.(thread := Some(self), pc := Acquiring)
    // run returns only from the check before waiting, on reading a set flag
    ensures Step(c, self).pc == Returned && c.pc != Returned ==> c.pc == Checking && c.stop
    // that check is reached only from an empty acquire, or from a wait
    // predicate that saw the flag set
    ensures Step(c, self).pc == Checking && c.pc != Checking ==>
      (c.pc == Acquiring && c.queue == []) || (c.pc == WaitChecking && c.stop)
    // a non-empty acquire is drained, whatever the stop flag says
    ensures (c.pc == Acquiring || c.pc == Waiting) && c.queue != [] ==>
      Step(c, self).pc == Draining(Reverse(c.queue)) && Step(c, self).queue == []
    // a batch is resumed front to back, one node per step
    ensures c.pc.Draining? && c.pc.batch != [] ==>
      Step(c, self).resumed == c.resumed + [c.pc.batch[0]] && Step(c, self).pc == Draining(c.pc.batch[1..])
  {
  }

  /** What may happen to a context between two observations: a producer
      posts a node, someone calls `stop(flag)`, or `run` takes a step. */
  datatype Event = PostEvent(node: NodeId) | StopEvent(flag: bool) | RunEvent

  function Apply(c: Ctx, e: Event, self: ThreadId): Ctx
  {
    match e
    case PostEvent(n) => Post(c, n)
    case StopEvent(flag) => Stop(c, flag)
    case RunEvent => Step(c, self)
  }

  /** The context after the events `evs`, `run` being on thread `self`. */
  function Exec(c: Ctx, evs: seq<Event>, self: ThreadId): Ctx
    decreases |evs|
  {
    if evs == [] then c else Exec(Apply(c, evs[0], self), evs[1..], self)
  }

  /** The nodes posted by `evs`, in posting order. */
  function Posted(evs: seq<Event>): seq<NodeId>
    decreases |evs|
  {
    if evs == [] then []
    else if evs[0].PostEvent? then [evs[0].node] + Posted(evs[1..])
    else Posted(evs[1..])
  }

  /** Over any events, what is resumed and what is pending together are
      what was there plus what was posted, in order. */
  lemma {:induction false} ExecConserves(c: Ctx, evs: seq<Event>, self: ThreadId)
    ensures Exec(c, evs, self).resumed + Pending(Exec(c, evs, self)) == c.resumed + Pending(c) + Posted(evs)
    decreases |evs|
  {
    if evs != [] {
      var c' := Apply(c, evs[0], self);
      ExecConserves(c', evs[1..], self);
      if evs[0].PostEvent? {
        assert c'.resumed + Pending(c') == c.resumed + Pending(c) + [evs[0].node];
      }
    }
  }

  /** FIFO and exactly once: from a fresh context, the resumed nodes are
      always a prefix of the posted ones, so no node is resumed out of
      order, and when every post is of a distinct node none is resumed
      twice. What is not resumed yet is exactly what is pending. */
  lemma RunIsFifo(evs: seq<Event>, self: ThreadId)
    ensures Exec(Init, evs, self).resumed <= Posted(evs)
    ensures Exec(Init, evs, self).resumed + Pending(Exec(Init, evs, self)) == Posted(evs)
    ensures Distinct(Posted(evs)) ==> Distinct(Exec(Init, evs, self).resumed)
  {
    var c := Exec(Init, evs, self);
    ExecConserves(Init, evs, self);
    assert Init.resumed + Pending(Init) == [];
    PrefixOfAppend(c.resumed, Pending(c));
    if Distinct(Posted(evs)) {
      PrefixDistinct(c.resumed, Posted(evs));
    }
  }

  /** From a fresh context, `run` publishes its thread first: before its
      first step nobody is current, afterwards exactly `self` is. */
  lemma {:induction false} PublishedThread(c: Ctx, evs: seq<Event>, self: ThreadId)
    requires c.pc == Idle ==> c.thread == None
    requires c.pc != Idle ==> c.thread == Some(self)
    ensures Exec(c, evs, self).pc == Idle ==> Exec(c, evs, self).thread == None
    ensures Exec(c, evs, self).pc != Idle ==> Exec(c, evs, self).thread == Some(self)
    decreases |evs|
  {
    if evs != [] {
      PublishedThread(Apply(c, evs[0], self), evs[1..], self);
    }
  }

  /** `is_current` after any events holds exactly for the running thread,
      once `run` has started. */
  lemma IsCurrentExactly(evs: seq<Event>, self: ThreadId, caller: ThreadId)
    ensures IsCurrent(Exec(Init, evs, self), caller) <==> Exec(Init, evs, self).pc != Idle && caller == self
  {
    PublishedThread(Init, evs, self);
  }

  /** When `run` returns, the trace is everything posted so far except
      what is still queued, which is never resumed. Which nodes those are
      is stated by `LatePostsStayQueued`. */
  lemma ReturnLeavesLatePosts(evs: seq<Event>, self: ThreadId)
    requires Exec(Init, evs, self).pc != Returned
    requires Step(Exec(Init, evs, self), self).pc == Returned
    ensures var r := Step(Exec(Init, evs, self), self);
      r.resumed + Reverse(r.queue) == Posted(evs)
  {
    var c := Exec(Init, evs, self);
    RunIsFifo(evs, self);
    assert c.pc == Checking;
    assert Pending(c) == Reverse(c.queue);
  }

  /** Running the events `a` and then `b` is running `a + b`. */
  lemma {:induction false} ExecAppend(c: Ctx, a: seq<Event>, b: seq<Event>, self: ThreadId)
    ensures Exec(c, a + b, self) == Exec(Exec(c, a, self), b, self)
    decreases |a|
  {
    if a != [] {
      assert (a + b)[1..] == a[1..] + b;
      ExecAppend(Apply(c, a[0], self), a[1..], b, self);
    } else {
      assert a + b == b;
    }
  }

  /** `run` does not `acquire` while the events `late` happen from `c`:
      none of them is a step of `run` at the top of its loop or in the
      wait predicate. */
  ghost predicate NoAcquire(c: Ctx, late: seq<Event>, self: ThreadId)
    decreases |late|
  {
    || late == []
    || (&& (late[0].RunEvent? ==> c.pc != Acquiring && c.pc != Waiting)
        && NoAcquire(Apply(c, late[0], self), late[1..], self))
  }

  /** One event after an empty `acquire`, when it is not an acquire. */
  lemma NoAcquireOne(c: Ctx, e: Event, self: ThreadId)
    requires c.pc == Checking || c.pc == WaitChecking || c.pc == Waiting || c.pc == Returned
    requires e.RunEvent? ==> c.pc != Waiting
    ensures var r := Apply(c, e, self);
      && (r.pc == Checking || r.pc == WaitChecking || r.pc == Waiting || r.pc == Returned)
      && r.resumed == c.resumed
      && Reverse(r.queue) == Reverse(c.queue) + (if e.PostEvent? then [e.node] else [])
  {
  }

  /** After an empty `acquire` and until the next one, the steps of `run`
      only read the stop flag: nothing is resumed, and the queue gathers
      every node posted meanwhile, in posting order. */
  lemma {:induction false} NoAcquireKeepsQueue(c: Ctx, late: seq<Event>, self: ThreadId)
    requires c.pc == Checking || c.pc == WaitChecking || c.pc == Waiting || c.pc == Returned
    requires NoAcquire(c, late, self)
    ensures var r := Exec(c, late, self);
      && (r.pc == Checking || r.pc == WaitChecking || r.pc == Waiting || r.pc == Returned)
      && r.resumed == c.resumed
      && Reverse(r.queue) == Reverse(c.queue) + Posted(late)
    decreases |late|
  {
    if late != [] {
      NoAcquireOne(c, late[0], self);
      NoAcquireKeepsQueue(Apply(c, late[0], self), late[1..], self);
    }
  }

  /** From `run`'s final, empty `acquire` on, for as long as it does not
      acquire again, and so for good once it has returned: the trace is
      exactly what was posted before that acquire, and the queue holds,
      in posting order, exactly what was posted after it. The stop reads
      in between do not look at the queue, so when `run` returns those
      late nodes are never resumed. */
  lemma LatePostsStayQueued(pre: seq<Event>, late: seq<Event>, self: ThreadId)
    requires Exec(Init, pre, self).pc == Acquiring || Exec(Init, pre, self).pc == Waiting
    requires Exec(Init, pre, self).queue == []
    requires NoAcquire(Step(Exec(Init, pre, self), self), late, self)
    ensures var r := Exec(Init, pre + [RunEvent] + late, self);
      r.resumed == Posted(pre) && Reverse(r.queue) == Posted(late)
  {
    var c := Exec(Init, pre, self);
    RunIsFifo(pre, self);
    assert Pending(c) == [];
    ExecAppend(Init, pre, [RunEvent], self);
    ExecAppend(Init, pre + [RunEvent], late, self);
    assert Exec(c, [RunEvent], self) == Step(c, self);
    NoAcquireKeepsQueue(Step(c, self), late, self);
  }

  /** A concrete run that leaves a node behind: `run` starts, `stop()` is
      called, `run` finds the queue empty, node 7 is posted, and `run`
      reads the flag and returns with node 7 still queued. */
  lemma LatePostIsAbandoned(self: ThreadId)
    ensures var evs := [RunEvent, StopEvent(true), RunEvent, PostEvent(7), RunEvent];
      var r := Exec(Init, evs, self);
      r.pc == Returned && r.queue == [7] && r.resumed == [] && Posted(evs) == [7]
  {
    var evs := [RunEvent, StopEvent(true), RunEvent, PostEvent(7), RunEvent];
    var c1 := Init.(thread := Some(self), pc := Acquiring);
    var c2 := c1.(stop := true);
    var c3 := c2.(pc := Checking);
    var c4 := c3.(queue := [7]);
    var c5 := c4.(pc := Returned);
    assert Exec(Init, evs, self) == Exec(c1, evs[1..], self);
    assert Exec(c1, evs[1..], self) == Exec(c2, evs[2..], self);
    assert Exec(c2, evs[2..], self) == Exec(c3, evs[3..], self);
    assert Exec(c3, evs[3..], self) == Exec(c4, evs[4..], self);
    assert Exec(c4, evs[4..], self) == c5;
  }

  /** When `run`'s final `acquire` and the stop read after it follow each
      other with nothing in between, `run` returns having resumed every
      node posted, in posting order. */
  lemma ImmediateReturnIsDrained(evs: seq<Event>, self: ThreadId)
    requires Exec(Init, evs, self).pc == Acquiring
    requires Step(Step(Exec(Init, evs, self), self), self).pc == Returned
    ensures Step(Step(Exec(Init, evs, self), self), self).resumed == Posted(evs)
  {
    var c := Exec(Init, evs, self);
    RunIsFifo(evs, self);
    assert c.queue == [];
    assert Pending(c) == [];
  }

  /** A stop that is withdrawn between the wait predicate's read of the
      flag and the read before waiting again sends `run` back to waiting
      instead of returning. */
  lemma WithdrawnStopKeepsWaiting(c: Ctx, self: ThreadId)
    requires c.pc == Waiting && c.queue == [] && c.stop
    ensures Step(Step(c, self), self).pc == Checking
    ensures Step(Stop(Step(Step(c, self), self), false), self).pc == Waiting
  {
  }

  /** `run` stepped `k` times with nothing else happening. */
  function Steps(c: Ctx, k: nat, self: ThreadId): Ctx
    decreases k
  {
    if k == 0 then c else Steps(Step(c, self), k - 1, self)
  }

  /** The state `run` reaches once the batch being drained is done. */
  function Drained(c: Ctx): Ctx
    requires c.pc.Draining?
  {
    c.(pc := Draining([]), resumed := c.resumed + c.pc.batch)
  }

  /** Resuming one node of a batch brings `run` no further from the
      drained state. */
  lemma DrainOne(c: Ctx, self: ThreadId)
    requires c.pc.Draining? && c.pc.batch != []
    ensures Step(c, self) == ResumeNext(c)
    ensures Drained(ResumeNext(c)) == Drained(c)
  {
    var b := c.pc.batch;
    assert c.resumed + [b[0]] + b[1..] == c.resumed + b;
  }

  /** `k + 1` steps are one step followed by `k`. */
  lemma StepsFirst(c: Ctx, k: nat, self: ThreadId)
    ensures Steps(c, k + 1, self) == Steps(Step(c, self), k, self)
  {
  }

  /** An empty batch is already drained. */
  lemma DrainNone(c: Ctx, k: nat, self: ThreadId)
    requires c.pc == Draining([])
    ensures Steps(c, k, self) == Steps(Drained(c), k, self)
  {
    assert Drained(c) == c;
  }

  /** One more node in the batch is one more step to the drained state. */
  lemma DrainCons(c: Ctx, k: nat, self: ThreadId)
    requires c.pc.Draining? && c.pc.batch != []
    requires Steps(ResumeNext(c), |c.pc.batch| - 1 + k, self) == Steps(Drained(ResumeNext(c)), k, self)
    ensures Steps(c, |c.pc.batch| + k, self) == Steps(Drained(c), k, self)
  {
    DrainOne(c, self);
    StepsFirst(c, |c.pc.batch| - 1 + k, self);
  }

  /** Draining a batch takes one step per node and resumes them in order;
      whatever `run` does next starts from the drained state. */
  lemma {:induction false} DrainSteps(c: Ctx, k: nat, self: ThreadId)
    requires c.pc.Draining?
    ensures Steps(c, |c.pc.batch| + k, self) == Steps(Drained(c), k, self)
    decreases |c.pc.batch|
  {
    if c.pc.batch == [] {
      DrainNone(c, k, self);
    } else {
      DrainSteps(ResumeNext(c), k, self);
      DrainCons(c, k, self);
    }
  }

  /** With the stop flag set and nothing queued, `run` returns from the
      top of its loop in two steps, an empty `acquire` and a read of the
      flag, and stays returned. */
  lemma StoppedEmptyReturns(c: Ctx, k: nat, self: ThreadId)
    requires c.pc == Acquiring && c.stop && c.queue == []
    ensures Steps(c, k + 2, self) == c.(pc := Returned)
  {
    var m := c.(pc := Checking);
    var r := c.(pc := Returned);
    assert Step(c, self) == m;
    assert Step(m, self) == r;
    assert Steps(c, k + 2, self) == Steps(m, k + 1, self);
    assert Steps(m, k + 1, self) == Steps(r, k, self);
    ReturnedStays(r, k, self);
  }

  /** A returned `run` takes no more steps. */
  lemma {:induction false} ReturnedStays(c: Ctx, k: nat, self: ThreadId)
    requires c.pc == Returned
    ensures Steps(c, k, self) == c
    decreases k
  {
    if k > 0 {
      ReturnedStays(Step(c, self), k - 1, self);
    }
  }

  /** A finished batch with the stop flag set and nothing queued: back to
      the top of the loop, then return. */
  lemma DrainedStoppedReturns(e: Ctx, self: ThreadId)
    requires e.pc == Draining([]) && e.stop && e.queue == []
    ensures Steps(e, 3, self) == e.(pc := Returned)
  {
    var a := e.(pc := Acquiring);
    assert Step(e, self) == a;
    StoppedEmptyReturns(a, 0, self);
  }

  /** The stopped `run` with a non-empty queue: acquire the whole queue as
      one batch, drain it, return. */
  lemma StopDrainsNonEmpty(c: Ctx, self: ThreadId)
    requires c.pc == Acquiring && c.stop && c.queue != []
    ensures Steps(c, |c.queue| + 4, self) == c.(queue := [], pc := Returned, resumed := c.resumed + Reverse(c.queue))
  {
    var d := c.(queue := [], pc := Draining(Reverse(c.queue)));
    assert Step(c, self) == d;
    var n := |c.queue| + 3;
    assert Steps(c, n + 1, self) == Steps(d, n, self);
    DrainSteps(d, 3, self);
    DrainedStoppedReturns(Drained(d), self);
  }

  /** From the top of its loop with the stop flag set, and with nothing
      else happening, `run` still drains everything queued and then
      returns: one step to acquire, one per node, one to come back to the
      top, one to find the queue empty and one to read the flag. */
  lemma StopDrainsThenReturns(c: Ctx, self: ThreadId)
    requires c.pc == Acquiring && c.stop
    ensures var r := Steps(c, |c.queue| + 4, self);
      r.pc == Returned && r.queue == [] && r.resumed == c.resumed + Reverse(c.queue)
  {
    if c.queue == [] {
      StoppedEmptyReturns(c, 2, self);
    } else {
      StopDrainsNonEmpty(c, self);
    }
  }

  /** `co_await context.schedule(post)` from thread `caller`: the fast path
      leaves the context untouched; otherwise the node is posted. */
  function CoAwait(c: Ctx, caller: ThreadId, node: NodeId, post: bool): (r: Ctx)
    ensures Scheduler.MakeSchedule(node, IsCurrent(c, caller), post).ready ==> r == c
    ensures !Scheduler.MakeSchedule(node, IsCurrent(c, caller), post).ready ==> Pending(r) == Pending(c) + [node]
  {
    if Scheduler.MakeSchedule(node, IsCurrent(c, caller), post).ready then c else Post(c, node)
  }

  /** On a context whose `run` has started on `self`, a `schedule` awaiter
      is ready, and so never queues, exactly when posting is not forced and
      the caller is `self`. */
  lemma ScheduleReadyOnOwner(evs: seq<Event>, self: ThreadId, caller: ThreadId, node: NodeId, post: bool)
    ensures var c := Exec(Init, evs, self);
      Scheduler.MakeSchedule(node, IsCurrent(c, caller), post).ready <==> !post && c.pc != Idle && caller == self
  {
    IsCurrentExactly(evs, self, caller);
  }
}

=== FILE: dialog.dfy ===
/** The pure parts of the `Dialog` template: the icon size table, the
    decoding of the AFX_DIALOG_LAYOUT resource, the window procedure's
    dispatch and the UI-thread `Schedule` awaiter.

    Win32 calls are left out: message constants carry their Windows SDK
    values, a window handle, a thread id and a coroutine address are plain
    numbers, and the messages a procedure posts are returned. */
module Dialog {
  import opened Base

  // ----- icon sizes -----

  /** `WPARAM` values of `WM_SETICON`. */
  const IconSmall: nat := 0
  const IconBig: nat := 1

  /** The DPI values with a size of their own in the table. */
  predicate StandardDpi(dpi: nat)
  {
    dpi == 96 || dpi == 120 || dpi == 144 || dpi == 192
  }

  /** `GetIconSize`: the icon size for a DPI; any other DPI defers to the
      system metric `SM_CXSMICON` (for the small icon) or `SM_CXICON`,
      given here as `systemSmall` and `systemBig`. Every type other than
      `ICON_SMALL` is treated as big. At the four listed DPIs the sizes
      are 16 and 32 pixels at 96 DPI, scaled by the DPI. */
  function GetIconSize(dpi: nat, iconType: nat, systemSmall: int, systemBig: int): (size: int)
    ensures StandardDpi(dpi) && iconType == IconSmall ==> size * 96 == 16 * dpi
    ensures StandardDpi(dpi) && iconType != IconSmall ==> size * 96 == 32 * dpi
    ensures !StandardDpi(dpi) ==> size == if iconType == IconSmall then systemSmall else systemBig
  {
    match dpi
    case 96 => if iconType == IconSmall then 16 else 32
    case 120 => if iconType == IconSmall then 20 else 40
    case 144 => if iconType == IconSmall then 24 else 48
    case 192 => if iconType == IconSmall then 32 else 64
    case _ => if iconType == IconSmall then systemSmall else systemBig
  }

  /** At the listed DPIs the big icon is twice the small one. */
  lemma BigIsTwiceSmall(dpi: nat, systemSmall: int, systemBig: int)
    requires StandardDpi(dpi)
    ensures GetIconSize(dpi, IconBig, systemSmall, systemBig) == 2 * GetIconSize(dpi, IconSmall, systemSmall, systemBig)
  {
  }

  // ----- AFX_DIALOG_LAYOUT -----

  /** A 16-bit `WORD`. */
  newtype Word = x: int | 0 <= x < 0x1_0000

  /** The layout of one child control, as percentages of the growth of
      the dialog: how far it moves and how much it grows, along x and y. */
  datatype Child = Child(movex: Word, movey: Word, sizex: Word, sizey: Word)

  /** The shape the source asserts of a layout resource: a leading 0 word
      (the version) and four words per child. */
  predicate WellFormedLayout(words: seq<Word>)
  {
    |words| % 4 == 1 && words[0] == 0
  }

  /** The decoding loop reads the words at 1 to `4 * (|words| / 4)`; they
      lie inside the resource exactly when there are fewer than four words
      (no child is read) or the count is not a multiple of four. The
      leading word is never read outside the debug assertion. */
  predicate ReadsInside(words: seq<Word>)
  {
    |words| < 4 || |words| % 4 != 0
  }

  /** Every resource the assertion accepts is read inside its bounds. */
  lemma WellFormedReadsInside(words: seq<Word>)
    requires WellFormedLayout(words)
    ensures ReadsInside(words)
  {
  }

  /** The resource that lays out `children`. */
  function EncodeLayout(children: seq<Child>): (words: seq<Word>)
    ensures |words| == 1 + 4 * |children| && words[0] == 0
    ensures forall i :: 0 <= i < |children| ==>
      && words[1 + 4 * i] == children[i].movex
      && words[2 + 4 * i] == children[i].movey
      && words[3 + 4 * i] == children[i].sizex
      && words[4 + 4 * i] == children[i].sizey
    decreases |children|
  {
    if children == [] then [0]
    else
      var c := children[|children| - 1];
      EncodeLayout(children[..|children| - 1]) + [c.movex, c.movey, c.sizex, c.sizey]
  }

  /** Re-encoding the children decoded from a well-formed resource gives
      the resource back. */
  lemma DecodeRoundTrip(words: seq<Word>, children: seq<Child>)
    requires WellFormedLayout(words)
    requires |children| == |words| / 4
    requires forall i :: 0 <= i < |children| ==>
      children[i] == Child(words[1 + 4 * i], words[2 + 4 * i], words[3 + 4 * i], words[4 + 4 * i])
    ensures EncodeLayout(children) == words
  {
    var back := EncodeLayout(children);
    forall k | 0 <= k < |words|
      ensures back[k] == words[k]
    {
      if k > 0 {
        var j, o := (k - 1) / 4, (k - 1) % 4;
        assert k == 1 + 4 * j + o;
        assert |words| == 4 * (|words| / 4) + 1;
        assert j < |children|;
        if o == 0 {
          assert back[1 + 4 * j] == children[j].movex;
        } else if o == 1 {
          assert back[2 + 4 * j] == children[j].movey;
        } else if o == 2 {
          assert back[3 + 4 * j] == children[j].sizex;
        } else {
          assert back[4 + 4 * j] == children[j].sizey;
        }
      }
    }
  }

  /** The layout-decoding loop of `OnDialogCreate`: `size / 4` children,
      child `i` taking the four words after the leading one at `1 + 4 * i`
      in the order movex, movey, sizex, sizey. Any resource the loop reads
      inside its bounds is accepted, as in a release build; for one the
      debug assertion accepts, re-encoding gives back the resource, so
      nothing is lost. */
  method DecodeLayout(words: seq<Word>) returns (children: seq<Child>)
    requires ReadsInside(words)
    ensures |children| == |words| / 4
    ensures forall i :: 0 <= i < |children| ==>
      children[i] == Child(words[1 + 4 * i], words[2 + 4 * i], words[3 + 4 * i], words[4 + 4 * i])
    ensures WellFormedLayout(words) ==> EncodeLayout(children) == words
  {
    var size := |words|;
    assert size / 4 == 0 || 4 * (size / 4) < size;
    var data := 1;
    children := [];
    var i := 0;
    while i < size / 4
      invariant 0 <= i <= size / 4
      invariant data == 1 + 4 * i
      invariant |children| == i
      invariant forall j :: 0 <= j < i ==>
        children[j] == Child(words[1 + 4 * j], words[2 + 4 * j], words[3 + 4 * j], words[4 + 4 * j])
    {
      var child := Child(words[data], words[data + 1], words[data + 2], words[data + 3]);
      data := data + 4;
      children := children + [child];
      i := i + 1;
    }
    if WellFormedLayout(words) {
      DecodeRoundTrip(words, children);
    }
  }

  /** The layout part of `OnDialogCreate`: when the dialog has a layout
      resource, `children_` is cleared and then holds exactly the decoded
      children; without one it is left as it was. */
  method LoadLayout(children: seq<Child>, resource: Option<seq<Word>>) returns (r: seq<Child>)
    requires resource.Some? ==> ReadsInside(resource.value)
    ensures resource.None? ==> r == children
    ensures resource.Some? ==> |r| == |resource.value| / 4 && forall i :: 0 <= i < |r| ==>
      r[i] == Child(resource.value[1 + 4 * i], resource.value[2 + 4 * i], resource.value[3 + 4 * i], resource.value[4 + 4 * i])
    ensures resource.Some? && WellFormedLayout(resource.value) ==> EncodeLayout(r) == resource.value
  {
    r := children;
    if resource.Some? {
      r := [];
      var decoded := DecodeLayout(resource.value);
      r := r + decoded;
      assert r == decoded;
    }
  }

  /** Decoding is the only inverse of encoding: a layout is determined by
      its resource. */
  lemma EncodeInjective(a: seq<Child>, b: seq<Child>)
    requires EncodeLayout(a) == EncodeLayout(b)
    ensures a == b
  {
    assert |a| == |b|;
    forall i | 0 <= i < |a|
      ensures a[i] == b[i]
    {
      var w := EncodeLayout(a);
      assert a[i] == Child(w[1 + 4 * i], w[2 + 4 * i], w[3 + 4 * i], w[4 + 4 * i]);
    }
  }

  // ----- the window procedure -----

  const WM_DESTROY: nat := 0x0002
  const WM_SIZE: nat := 0x0005
  const WM_CLOSE: nat := 0x0010
  const WM_GETMINMAXINFO: nat := 0x0024
  const WM_DRAWITEM: nat := 0x002B
  const WM_NOTIFY: nat := 0x004E
  const WM_INITDIALOG: nat := 0x0110
  const WM_COMMAND: nat := 0x0111
  const WM_CTLCOLORDLG: nat := 0x0136
  const WM_DPICHANGED: nat := 0x02E0
  const WM_USER: nat := 0x0400
  const WM_DIALOG_CREATE: nat := WM_USER + 1
  const WM_DIALOG_RESUME: nat := WM_USER + 2

  /** The messages `Proc` handles itself once the dialog pointer is stored. */
  const Handled: set<nat> := {WM_DIALOG_CREATE, WM_CLOSE, WM_DESTROY, WM_SIZE, WM_DPICHANGED,
    WM_GETMINMAXINFO, WM_COMMAND, WM_NOTIFY, WM_DRAWITEM, WM_CTLCOLORDLG, WM_DIALOG_RESUME}

  const TRUE: int := 1
  const FALSE: int := 0

  /** The low and high 16 bits of a message parameter. */
  function LoWord(x: nat): nat { x % 0x1_0000 }
  function HiWord(x: nat): nat { (x / 0x1_0000) % 0x1_0000 }
  /** `static_cast<UINT>`: the low 32 bits of a 64-bit `WPARAM`. */
  function ToUint(x: nat): nat { x % 0x1_0000_0000 }

  /** A message posted to a window. */
  datatype Message = Message(id: nat, wparam: nat, lparam: nat)

  /** What the window procedure does with a message. */
  datatype Action =
    | Attach(dialog: nat, posted: Message)  // store the dialog pointer, post the bootstrap message
    | Create                                // `hwnd_ = hwnd; OnDialogCreate()`
    | Close
    | Destroy
    | Size(cx: nat, cy: nat)
    | DpiChanged(dpi: nat)
    | GetMinMaxInfo
    | Command(code: nat, id: nat)
    | Notify
    | DrawItem(id: nat)
    | CtlColor                              // answer with a stock object
    | Resume(coroutine: nat)                // resume the coroutine at that address
    | Skip                                  // nothing
    | Forward                               // offer it to `T::OnMessage`

  /** What the procedure returns: a fixed value, or whatever the handler
      it called returns (the handler of the concrete dialog, or the stock
      object for `WM_CTLCOLORDLG`). */
  datatype Reply = Value(v: int) | FromHandler

  /** `Dialog::Proc` for a window whose user data (the dialog pointer) is
      `userData`. Messages arriving before `WM_INITDIALOG` has stored a
      pointer are not handled. */
  function Proc(userData: nat, message: nat, wparam: nat, lparam: nat): (r: (Action, Reply))
    ensures message == WM_DIALOG_RESUME && userData != 0 ==>
      r.1 == Value(TRUE) && (if lparam != 0 then r.0 == Resume(lparam) else r.0 == Skip)
    ensures message != WM_INITDIALOG && userData == 0 ==> r == (Skip, Value(FALSE))
    ensures r.0.Resume? ==> message == WM_DIALOG_RESUME && r.0.coroutine == lparam != 0
    ensures message == WM_INITDIALOG ==> r == (Attach(lparam, Message(WM_DIALOG_CREATE, 0, 0)), Value(FALSE))
    ensures message != WM_INITDIALOG && userData != 0 ==> (r.0 == Forward <==> message !in Handled)
  {
    if message == WM_INITDIALOG then
      (Attach(lparam, Message(WM_DIALOG_CREATE, 0, 0)), Value(FALSE))
    else if userData == 0 then
      (Skip, Value(FALSE))
    else if message == WM_DIALOG_CREATE then (Create, Value(TRUE))
    else if message == WM_CLOSE then (Close, Value(TRUE))
    else if message == WM_DESTROY then (Destroy, Value(TRUE))
    else if message == WM_SIZE then (Size(LoWord(lparam), HiWord(lparam)), FromHandler)
    else if message == WM_DPICHANGED then (DpiChanged(HiWord(wparam)), FromHandler)
    else if message == WM_GETMINMAXINFO then (GetMinMaxInfo, FromHandler)
    else if message == WM_COMMAND then (Command(HiWord(wparam), LoWord(wparam)), FromHandler)
    else if message == WM_NOTIFY then (Notify, FromHandler)
    else if message == WM_DRAWITEM then (DrawItem(ToUint(wparam)), FromHandler)
    else if message == WM_CTLCOLORDLG then (CtlColor, FromHandler)
    else if message == WM_DIALOG_RESUME then
      (if lparam != 0 then Resume(lparam) else Skip, Value(TRUE))
    else (Forward, FromHandler)
  }

  /** The bootstrap: `WM_INITDIALOG` stores the dialog pointer and posts
      the message that, with that pointer stored, runs `OnDialogCreate`. */
  lemma InitThenCreate(userData: nat, wparam: nat, dialog: nat)
    requires dialog != 0
    ensures var (a, _) := Proc(userData, WM_INITDIALOG, wparam, dialog);
      a.Attach? && a.dialog == dialog &&
      Proc(a.dialog, a.posted.id, a.posted.wparam, a.posted.lparam) == (Create, Value(TRUE))
  {
  }

  /** `WM_DIALOG_CREATE` does the same whatever its `lparam` carries. */
  lemma CreateIgnoresLparam(userData: nat, wparam: nat, a: nat, b: nat)
    ensures Proc(userData, WM_DIALOG_CREATE, wparam, a) == Proc(userData, WM_DIALOG_CREATE, wparam, b)
  {
  }

  /** `WM_COMMAND` hands the high word of `wparam` as the notification
      code and the low word as the control id. */
  lemma CommandSplitsWparam(userData: nat, code: nat, id: nat, lparam: nat)
    requires userData != 0 && code < 0x1_0000 && id < 0x1_0000
    ensures Proc(userData, WM_COMMAND, code * 0x1_0000 + id, lparam).0 == Command(code, id)
  {
    var w := code * 0x1_0000 + id;
    assert w / 0x1_0000 == code && w % 0x1_0000 == id;
  }

  /** `WM_DRAWITEM` hands the control id as `wparam` cut to 32 bits: the
      high half of a 64-bit `wparam` is dropped. */
  lemma DrawItemTruncatesWparam(userData: nat, high: nat, id: nat, lparam: nat)
    requires userData != 0 && high < 0x1_0000_0000 && id < 0x1_0000_0000
    ensures Proc(userData, WM_DRAWITEM, high * 0x1_0000_0000 + id, lparam).0 == DrawItem(id)
  {
    var w := high * 0x1_0000_0000 + id;
    assert w % 0x1_0000_0000 == id;
  }

  // ----- the UI-thread awaiter -----

  /** `Dialog::Schedule` as written: ready when the current thread owns
      the window; otherwise `await_suspend` posts `WM_DIALOG_CREATE` with
      the coroutine address. Returns the message posted, if any. */
  function UiCoAwait(currentThread: nat, windowThread: nat, coroutine: nat): (posted: Option<Message>)
    ensures posted.None? <==> currentThread == windowThread
    ensures posted.Some? ==> posted.value == Message(WM_DIALOG_CREATE, 0, coroutine)
  {
    if currentThread == windowThread then None else Some(Message(WM_DIALOG_CREATE, 0, coroutine))
  }

  /** What goes wrong as written: the message a suspending UI awaiter
      posts never resumes its coroutine; it runs `OnDialogCreate` again. */
  lemma UiCoAwaitNeverResumes(currentThread: nat, windowThread: nat, coroutine: nat, userData: nat)
    requires currentThread != windowThread && userData != 0
    ensures var m := UiCoAwait(currentThread, windowThread, coroutine).value;
      Proc(userData, m.id, m.wparam, m.lparam).0 == Create
  {
  }

  /** `Dialog::Schedule` as evidently intended: the suspending awaiter
      posts `WM_DIALOG_RESUME`, the message whose handler resumes the
      coroutine at `lparam`. */
  function UiCoAwaitFixed(currentThread: nat, windowThread: nat, coroutine: nat): (posted: Option<Message>)
    ensures posted.None? <==> currentThread == windowThread
    ensures posted.Some? ==> posted.value == Message(WM_DIALOG_RESUME, 0, coroutine)
  {
    if currentThread == windowThread then None else Some(Message(WM_DIALOG_RESUME, 0, coroutine))
  }

  /** With the fix, the posted message resumes exactly the suspended
      coroutine (whose frame address is never null) on the UI thread. */
  lemma UiCoAwaitFixedResumes(currentThread: nat, windowThread: nat, coroutine: nat, userData: nat)
    requires currentThread != windowThread && userData != 0 && coroutine != 0
    ensures var m := UiCoAwaitFixed(currentThread, windowThread, coroutine).value;
      Proc(userData, m.id, m.wparam, m.lparam) == (Resume(coroutine), Value(TRUE))
  {
  }
}

=== FILE: scheduler.dfy ===
/** The intrusive multi-producer / single-consumer chain of `schedule` nodes.

    Producers push nodes at the head (LIFO); the single consumer claims the
    whole chain at once and reverses it in place so that the nodes come out
    in the order they were posted (FIFO), then resumes each one.

    Two views are kept side by side: the abstract chain is a head-first
    `seq<NodeId>`; the concrete one is the `next` field of every node (a map
    from node id to a nullable link) plus the shared `head_` link, and
    `IsChain` ties the two together. Atomics and memory orders are left
    out: every operation is one sequential step. */
module Scheduler {
  import opened Base

  /** The address of a `schedule` node. */
  type NodeId = nat

  /** A coroutine handle stored in a node, resumed when the node is processed. */
  type Handle = nat

  /** A nullable pointer to a node. */
  datatype Link = Null | Ptr(id: NodeId)

  /** The `next` field of every node in existence. */
  type Heap = map<NodeId, Link>

  /** A scheduler: its shared `head_` and the node storage that it points into. */
  datatype Sched = Sched(heap: Heap, head: Link)

  /** Following `next` links from `head` visits exactly the nodes `xs`, each
      once, and ends in a null link. */
  ghost predicate IsChain(heap: Heap, head: Link, xs: seq<NodeId>)
    decreases |xs|
  {
    if xs == [] then head == Null
    else
      && head == Ptr(xs[0])
      && xs[0] in heap
      && xs[0] !in xs[1..]
      && IsChain(heap, heap[xs[0]], xs[1..])
  }

  /** A chain never mentions a node twice. */
  lemma {:induction false} ChainDistinct(heap: Heap, head: Link, xs: seq<NodeId>)
    requires IsChain(heap, head, xs)
    ensures Distinct(xs)
    decreases |xs|
  {
    if xs != [] {
      ChainDistinct(heap, heap[xs[0]], xs[1..]);
      forall i, j | 0 <= i < j < |xs|
        ensures xs[i] != xs[j]
      {
        if i == 0 {
          assert xs[j] == xs[1..][j - 1];
        } else {
          assert xs[i] == xs[1..][i - 1] && xs[j] == xs[1..][j - 1];
        }
      }
    }
  }

  /** Rewriting the link of a node outside a chain leaves the chain intact. */
  lemma {:induction false} ChainFrame(heap: Heap, head: Link, xs: seq<NodeId>, n: NodeId, v: Link)
    requires IsChain(heap, head, xs)
    requires n !in xs
    ensures IsChain(heap[n := v], head, xs)
    decreases |xs|
  {
    if xs != [] {
      ChainFrame(heap, heap[xs[0]], xs[1..], n, v);
    }
  }

  // ----- abstract chain -----

  /** `post` on the abstract chain: the node becomes the new head. */
  function Push(chain: seq<NodeId>, n: NodeId): (r: seq<NodeId>)
    ensures |r| == |chain| + 1 && r[0] == n && r[1..] == chain
    ensures Reverse(r) == Reverse(chain) + [n]
  {
    [n] + chain
  }

  /** `acquire` on the abstract chain, with the source's fast path for a
      chain of at most one node. */
  function Claim(chain: seq<NodeId>): (batch: seq<NodeId>)
    ensures batch == Reverse(chain)
    ensures |batch| == |chain|
    ensures multiset(batch) == multiset(chain)
  {
    ReverseMultiset(chain);
    if |chain| <= 1 then chain else Reverse(chain)
  }

  /** Posting nodes one after another and claiming the chain gives them back
      in posting order. */
  lemma {:induction false} ClaimIsFifo(posts: seq<NodeId>)
    ensures Claim(PushAll([], posts)) == posts
  {
    PushAllOrder([], posts);
    assert Reverse([]) + posts == posts;
  }

  /** The chain after posting each of `posts` in turn onto `chain`. */
  function PushAll(chain: seq<NodeId>, posts: seq<NodeId>): seq<NodeId>
    decreases |posts|
  {
    if posts == [] then chain else PushAll(Push(chain, posts[0]), posts[1..])
  }

  lemma {:induction false} PushAllOrder(chain: seq<NodeId>, posts: seq<NodeId>)
    ensures Reverse(PushAll(chain, posts)) == Reverse(chain) + posts
    decreases |posts|
  {
    if posts != [] {
      PushAllOrder(Push(chain, posts[0]), posts[1..]);
      assert Reverse(chain) + [posts[0]] + posts[1..] == Reverse(chain) + posts;
    }
  }

  // ----- concrete chain -----

  /** `scheduler::post`: the node's `next` is set to the current head and
      the head is swung to the node: the state the compare-and-swap loop
      ends in, after its one successful exchange. The source asserts a
      non-null node. */
  function Post(s: Sched, node: Link): (r: Sched)
    requires node != Null
    ensures r.head == node
    ensures node.id in r.heap && r.heap[node.id] == s.head
    ensures r.heap.Keys == s.heap.Keys + {node.id}
    ensures forall m :: m in s.heap && m != node.id ==> r.heap[m] == s.heap[m]
  {
    Sched(s.heap[node.id := s.head], node)
  }

  /** Posting a node that is not queued already grows the chain by exactly
      that node at the front. */
  lemma PostPushesFront(s: Sched, node: Link, xs: seq<NodeId>)
    requires node != Null
    requires IsChain(s.heap, s.head, xs)
    requires node.id !in xs
    ensures IsChain(Post(s, node).heap, Post(s, node).head, Push(xs, node.id))
  {
    ChainFrame(s.heap, s.head, xs, node.id, s.head);
    assert Push(xs, node.id)[1..] == xs;
  }

  /** What holds between the rounds of the in-place reversal of `xs`: the
      nodes already visited form the chain `done` from `prev` (reversed),
      the others still form the chain `rest` from `head`, and nodes outside
      `xs` keep their original links. */
  ghost predicate Reversing(heap0: Heap, xs: seq<NodeId>, heap: Heap, prev: Link, head: Link, done: seq<NodeId>, rest: seq<NodeId>)
  {
    && IsChain(heap, prev, done)
    && IsChain(heap, head, rest)
    && Reverse(done) + rest == xs
    && (forall y :: y in done ==> y !in rest)
    && heap.Keys == heap0.Keys
    && (forall m :: m in heap0 && m !in xs ==> heap[m] == heap0[m])
  }

  /** The relinked node heads the visited chain, and the unvisited rest is
      unaffected by the relinking. */
  lemma RelinkChains(heap: Heap, prev: Link, done: seq<NodeId>, x: NodeId, rest: seq<NodeId>)
    requires IsChain(heap, prev, done) && IsChain(heap, Ptr(x), [x] + rest)
    requires x !in done
    ensures IsChain(heap[x := prev], Ptr(x), [x] + done)
    ensures IsChain(heap[x := prev], heap[x], rest)
  {
    assert ([x] + rest)[1..] == rest;
    ChainFrame(heap, prev, done, x, prev);
    ChainFrame(heap, heap[x], rest, x, prev);
    assert ([x] + done)[1..] == done;
  }

  /** Moving the first node of `rest` to the front of `done` keeps the
      reversed split of `xs`. */
  lemma RelinkOrder(xs: seq<NodeId>, done: seq<NodeId>, rest: seq<NodeId>)
    requires rest != [] && Reverse(done) + rest == xs
    ensures Reverse([rest[0]] + done) + rest[1..] == xs
  {
    ReverseAppend([rest[0]], done);
    assert Reverse([rest[0]]) == [rest[0]];
    assert rest == [rest[0]] + rest[1..];
  }

  /** One round of the in-place reversal: the first node of `rest` is
      unlinked and relinked in front of `done`. */
  lemma ReverseStep(heap0: Heap, xs: seq<NodeId>, heap: Heap, prev: Link, head: Link, done: seq<NodeId>, rest: seq<NodeId>)
    requires Reversing(heap0, xs, heap, prev, head, done, rest)
    requires head != Null
    ensures rest != [] && head == Ptr(rest[0]) && head.id in heap
    ensures Reversing(heap0, xs, heap[head.id := prev], head, heap[head.id], [head.id] + done, rest[1..])
  {
    var x := rest[0];
    assert rest == [x] + rest[1..];
    RelinkChains(heap, prev, done, x, rest[1..]);
    RelinkOrder(xs, done, rest);
    assert x in xs by {
      assert xs[|done|] == x;
    }
    assert forall y :: y in [x] + done ==> y !in rest[1..];
  }

  /** When the reversal has visited every node, `done` is `xs` reversed. */
  lemma ReverseDone(heap0: Heap, xs: seq<NodeId>, heap: Heap, prev: Link, done: seq<NodeId>, rest: seq<NodeId>)
    requires Reversing(heap0, xs, heap, prev, Null, done, rest)
    ensures IsChain(heap, prev, Reverse(xs))
  {
    assert rest == [] && Reverse(done) == xs;
    ReverseReverse(done);
  }

  /** The loop of `scheduler::acquire`: reverse the chain `xs` starting at
      `head` in place, returning the new first node. Only the links of the
      nodes of `xs` change. */
  method ReverseInPlace(heap0: Heap, head0: Link, ghost xs: seq<NodeId>) returns (heap: Heap, prev: Link)
    requires IsChain(heap0, head0, xs)
    ensures IsChain(heap, prev, Reverse(xs))
    ensures heap.Keys == heap0.Keys
    ensures forall m :: m in heap0 && m !in xs ==> heap[m] == heap0[m]
  {
    var head := head0;
    heap, prev := heap0, Null;
    ghost var done: seq<NodeId> := [];
    ghost var rest := xs;
    while head != Null
      invariant Reversing(heap0, xs, heap, prev, head, done, rest)
      decreases |rest|
    {
      ReverseStep(heap0, xs, heap, prev, head, done, rest);
      var next := heap[head.id];
      heap := heap[head.id := prev];
      done, rest := [head.id] + done, rest[1..];
      prev := head;
      head := next;
    }
    ReverseDone(heap0, xs, heap, prev, done, rest);
  }

  /** `scheduler::acquire`: swap the head to null, then (unless the chain
      has at most one node) reverse the claimed chain in place. The result
      links the claimed nodes in posting order; no other node is touched. */
  method Acquire(s: Sched, ghost xs: seq<NodeId>) returns (r: Sched, batch: Link)
    requires IsChain(s.heap, s.head, xs)
    ensures r.head == Null
    ensures IsChain(r.heap, batch, Reverse(xs))
    ensures r.heap.Keys == s.heap.Keys
    ensures forall m :: m in s.heap && m !in xs ==> r.heap[m] == s.heap[m]
  {
    var head := s.head;
    if head == Null || s.heap[head.id] == Null {
      assert xs == [] || xs == [xs[0]];
      return Sched(s.heap, Null), head;
    }
    var heap;
    heap, batch := ReverseInPlace(s.heap, head, xs);
    r := Sched(heap, Null);
  }

  /** Posting each of `ns` in turn, as a resumed computation does with
      every `schedule` it awaits before it suspends. */
  function PostEach(s: Sched, ns: seq<NodeId>): Sched
    decreases |ns|
  {
    if ns == [] then s else PostEach(Post(s, Ptr(ns[0])), ns[1..])
  }

  /** Posting distinct nodes that are in neither of two chains puts them,
      newest first, in front of the chain at the head and leaves the other
      chain intact. */
  lemma {:induction false} PostEachChains(s: Sched, ns: seq<NodeId>, earlier: seq<NodeId>, next: Link, rest: seq<NodeId>)
    requires IsChain(s.heap, s.head, earlier) && IsChain(s.heap, next, rest)
    requires Distinct(ns)
    requires forall n :: n in ns ==> n !in earlier && n !in rest
    ensures IsChain(PostEach(s, ns).heap, PostEach(s, ns).head, Reverse(ns) + earlier)
    ensures IsChain(PostEach(s, ns).heap, next, rest)
    decreases |ns|
  {
    if ns == [] {
      assert Reverse(ns) + earlier == earlier;
    } else {
      var n := ns[0];
      ChainFrame(s.heap, next, rest, n, s.head);
      PostPushesFront(s, Ptr(n), earlier);
      assert Push(earlier, n) == [n] + earlier;
      forall i, j | 0 <= i < j < |ns[1..]|
        ensures ns[1..][i] != ns[1..][j]
      {
        assert ns[1..][i] == ns[i + 1] && ns[1..][j] == ns[j + 1];
      }
      forall m | m in ns[1..]
        ensures m !in [n] + earlier && m !in rest
      {
        var i :| 0 <= i < |ns[1..]| && ns[1..][i] == m;
        assert m == ns[i + 1] != ns[0];
      }
      PostEachChains(Post(s, Ptr(n)), ns[1..], [n] + earlier, next, rest);
      assert Reverse(ns) == Reverse(ns[1..]) + [n];
      assert Reverse(ns[1..]) + ([n] + earlier) == Reverse(ns) + earlier;
    }
  }

  /** The nodes that resuming `ys` in order posts back to this scheduler,
      in posting order: the computation resumed at `y` posts the nodes
      `posts(y)`, one for each `schedule` of this scheduler it awaits,
      before it suspends again. */
  function Reposts(ys: seq<NodeId>, posts: NodeId -> seq<NodeId>): seq<NodeId>
    decreases |ys|
  {
    if ys == [] then [] else posts(ys[0]) + Reposts(ys[1..], posts)
  }

  lemma {:induction false} RepostsAppend(a: seq<NodeId>, b: seq<NodeId>, posts: NodeId -> seq<NodeId>)
    ensures Reposts(a + b, posts) == Reposts(a, posts) + Reposts(b, posts)
    decreases |a|
  {
    if a != [] {
      assert (a + b)[1..] == a[1..] + b;
      RepostsAppend(a[1..], b, posts);
    } else {
      assert a + b == b;
    }
  }

  /** Resuming one more node puts its posts, newest first, in front of the
      re-posted chain. */
  lemma RepostsNext(ys: seq<NodeId>, k: nat, posts: NodeId -> seq<NodeId>)
    requires k < |ys|
    ensures Reverse(Reposts(ys[..k + 1], posts)) == Reverse(posts(ys[k])) + Reverse(Reposts(ys[..k], posts))
  {
    assert ys[..k + 1] == ys[..k] + [ys[k]];
    RepostsAppend(ys[..k], [ys[k]], posts);
    assert Reposts([ys[k]], posts) == posts(ys[k]);
    ReverseAppend(Reposts(ys[..k], posts), posts(ys[k]));
  }

  /** The posts made while resuming `ys` split around the `k`-th node. */
  lemma RepostsSplit(ys: seq<NodeId>, k: nat, posts: NodeId -> seq<NodeId>)
    requires k < |ys|
    ensures Reposts(ys, posts) == Reposts(ys[..k], posts) + posts(ys[k]) + Reposts(ys[k + 1..], posts)
  {
    assert ys == ys[..k] + ys[k..];
    RepostsAppend(ys[..k], ys[k..], posts);
    assert ys[k..][1..] == ys[k + 1..];
  }

  /** When no node is posted twice while the batch `ys` is processed, the
      nodes posted by one resumed computation are distinct and not yet in
      the chain of earlier re-posts. */
  lemma RepostFresh(ys: seq<NodeId>, k: nat, posts: NodeId -> seq<NodeId>)
    requires k < |ys| && Distinct(Reposts(ys, posts))
    ensures Distinct(posts(ys[k]))
    ensures forall n :: n in posts(ys[k]) ==> n !in Reverse(Reposts(ys[..k], posts))
  {
    var a, p, b := Reposts(ys[..k], posts), posts(ys[k]), Reposts(ys[k + 1..], posts);
    RepostsSplit(ys, k, posts);
    DistinctMiddle(a, p, b);
    ReverseMultiset(a);
    forall n | n in posts(ys[k])
      ensures n !in Reverse(a)
    {
      assert n !in multiset(a);
    }
  }

  /** What the source leaves to the computations it resumes: none of them
      posts a node that is still waiting in the batch, and no node is
      posted twice. Either would close the chain into a cycle. */
  ghost predicate ProperReposts(ys: seq<NodeId>, posts: NodeId -> seq<NodeId>)
  {
    && (forall k, n :: 0 <= k < |ys| && n in posts(ys[k]) ==> n !in ys[k + 1..])
    && Distinct(Reposts(ys, posts))
  }

  /** One round of `process`: the node `ys[k]` is resumed after its `next`
      was read, and its computation posts its nodes in turn. The rest of
      the batch still hangs off that `next`, and the posted nodes head the
      chain of re-posts, newest first. */
  lemma ResumeRound(cur: Sched, next: Link, ys: seq<NodeId>, k: nat, posts: NodeId -> seq<NodeId>)
    requires k < |ys| && ProperReposts(ys, posts)
    requires IsChain(cur.heap, next, ys[k + 1..])
    requires IsChain(cur.heap, cur.head, Reverse(Reposts(ys[..k], posts)))
    ensures IsChain(PostEach(cur, posts(ys[k])).heap, next, ys[k + 1..])
    ensures IsChain(PostEach(cur, posts(ys[k])).heap, PostEach(cur, posts(ys[k])).head, Reverse(Reposts(ys[..k + 1], posts)))
  {
    RepostsNext(ys, k, posts);
    RepostFresh(ys, k, posts);
    PostEachChains(cur, posts(ys[k]), Reverse(Reposts(ys[..k], posts)), next, ys[k + 1..]);
  }

  /** `scheduler::process`: acquire the chain and resume every node, reading
      each node's `next` before resuming it. A resumed computation may
      `co_await` this scheduler again, once or several times, and so post
      nodes, its own or others, which rewrites their `next` and moves
      `head_`; the traversal is unaffected. The claimed batch is resumed
      in posting order, and afterwards `head_` holds exactly the re-posted
      nodes, newest first: it is null only when nothing was re-posted. */
  method Process(s: Sched, ghost xs: seq<NodeId>, posts: NodeId -> seq<NodeId>)
    returns (r: Sched, resumed: seq<NodeId>)
    requires IsChain(s.heap, s.head, xs)
    requires ProperReposts(Reverse(xs), posts)
    ensures resumed == Reverse(xs)
    ensures Distinct(resumed) && multiset(resumed) == multiset(xs)
    ensures IsChain(r.heap, r.head, Reverse(Reposts(resumed, posts)))
    ensures r.head == Null <==> Reposts(resumed, posts) == []
  {
    var acquired, head := Acquire(s, xs);
    var cur := acquired;
    ghost var ys := Reverse(xs);
    ghost var k := 0;
    resumed := [];
    while head != Null
      invariant 0 <= k <= |ys|
      invariant resumed == ys[..k]
      invariant IsChain(cur.heap, head, ys[k..])
      invariant IsChain(cur.heap, cur.head, Reverse(Reposts(ys[..k], posts)))
      decreases |ys| - k
    {
      var x := head.id;
      assert ys[k] == x && ys[k..][1..] == ys[k + 1..];
      var next := cur.heap[x];
      resumed := resumed + [x];
      ResumeRound(cur, next, ys, k, posts);
      cur := PostEach(cur, posts(x));
      head := next;
      assert ys[..k + 1] == ys[..k] + [x];
      k := k + 1;
    }
    assert ys[..k] == ys;
    ChainDistinct(s.heap, s.head, xs);
    ReverseDistinct(xs);
    ReverseMultiset(xs);
    r := cur;
  }

  // ----- the `schedule` awaiter -----

  /** One `schedule` awaiter: the node it is, whether it was ready at
      construction, and the coroutine handle stored by `await_suspend`. */
  datatype Schedule = Schedule(node: NodeId, ready: bool, awaiter: Option<Handle>)

  /** `scheduler::schedule(post)` / the `schedule` constructor: ready, that
      is never queued, exactly when posting is not forced and the caller is
      already on the scheduler's thread. */
  function MakeSchedule(node: NodeId, isCurrent: bool, post: bool): (a: Schedule)
    ensures a.ready <==> !post && isCurrent
    ensures a.node == node && a.awaiter == None
  {
    Schedule(node, !post && isCurrent, None)
  }

  /** `await_suspend`: store the awaiting coroutine, then post this node. */
  function AwaitSuspend(a: Schedule, h: Handle, s: Sched): (r: (Schedule, Sched))
    ensures r.0.node == a.node && r.0.ready == a.ready
    ensures r.0.awaiter == Some(h)
    ensures r.1 == Post(s, Ptr(a.node))
  {
    (a.(awaiter := Some(h)), Post(s, Ptr(a.node)))
  }

  /** `schedule::resume`: the handle that gets resumed is the stored one. */
  function Resume(a: Schedule): Handle
    requires a.awaiter.Some?
  {
    a.awaiter.value
  }

  /** `co_await scheduler.schedule(post)` from a coroutine `h`: when ready
      the coroutine continues at once and nothing is queued; otherwise the
      node is posted and, once processed, resumes `h`. */
  function CoAwait(s: Sched, node: NodeId, isCurrent: bool, post: bool, h: Handle): (r: (Schedule, Sched))
    ensures r.0.ready <==> !post && isCurrent
    ensures r.0.ready ==> r.1 == s && r.0.awaiter == None
    ensures !r.0.ready ==> r.1.head == Ptr(node) && node in r.1.heap && r.1.heap[node] == s.head
    ensures !r.0.ready ==> r.0.awaiter.Some? && Resume(r.0) == h
  {
    var a := MakeSchedule(node, isCurrent, post);
    if a.ready then (a, s) else AwaitSuspend(a, h, s)
  }

  /** The suspend/resume round trip: the handle resumed for a suspended
      awaiter is the one that suspended. */
  lemma SuspendThenResume(a: Schedule, h: Handle, s: Sched)
    ensures AwaitSuspend(a, h, s).0.awaiter.Some?
    ensures Resume(AwaitSuspend(a, h, s).0) == h
  {
  }
}

=== FILE: status.dfy ===
/** `Status`: a status bar that shows the newest message of a stack of
    messages. Each message belongs to a `State` token that appends it on
    construction, may replace or clear it, and erases it on destruction;
    after every change the bar is updated.

    The mutex and `SendMessage` are left out: the text on the bar is a
    field of the model. A token is named by a number standing for its list
    iterator. */
module Status {

  /** The message of one `State` token. */
  datatype Entry = Entry(token: nat, text: string)

  /** `Status::Info`: the stack (oldest first), the text on the bar, and
      the number of the next token to hand out. */
  datatype Info = Info(stack: seq<Entry>, shown: string, nextToken: nat)

  /** One of the characters " \f\n\r\t\v". */
  predicate IsSpace(c: char)
  {
    c == ' ' || c == '\U{000C}' || c == '\n' || c == '\r' || c == '\t' || c == '\U{000B}'
  }

  /** The text has no character outside " \f\n\r\t\v". */
  predicate IsBlank(s: string)
  {
    forall i :: 0 <= i < |s| ==> IsSpace(s[i])
  }

  /** `find_first_not_of(L" \f\n\r\t\v")`: the position of the first
      character that is not a space, or -1 for `npos`. */
  function FirstNotSpace(s: string): (p: int)
    ensures -1 <= p < |s|
    ensures p == -1 <==> IsBlank(s)
    ensures p >= 0 ==> !IsSpace(s[p]) && forall i :: 0 <= i < p ==> IsSpace(s[i])
    decreases |s|
  {
    if s == [] then -1
    else if !IsSpace(s[0]) then 0
    else
      var p := FirstNotSpace(s[1..]);
      assert forall i :: 1 <= i < |s| ==> s[i] == s[1..][i - 1];
      if p < 0 then -1 else p + 1
  }

  /** The position of the newest entry that is not blank, or -1. */
  function LastVisible(stack: seq<Entry>): (k: int)
    ensures -1 <= k < |stack|
    ensures k >= 0 ==> !IsBlank(stack[k].text)
    ensures forall j :: k < j < |stack| ==> IsBlank(stack[j].text)
    decreases |stack|
  {
    if stack == [] then -1
    else if !IsBlank(stack[|stack| - 1].text) then |stack| - 1
    else LastVisible(stack[..|stack| - 1])
  }

  /** The text the bar should show for a stack: the newest entry that is
      not blank, or "" when there is none. */
  function Displayed(stack: seq<Entry>): string
  {
    var k := LastVisible(stack);
    if k < 0 then "" else stack[k].text
  }

  /** The newest non-blank entry is the only position with that property. */
  lemma LastVisibleUnique(stack: seq<Entry>, k: int)
    requires k == -1 || (0 <= k < |stack| && !IsBlank(stack[k].text))
    requires forall j :: k < j < |stack| ==> IsBlank(stack[j].text)
    ensures LastVisible(stack) == k
  {
  }

  /** `Info::Update`: walk the stack from its newest entry and show the
      first one that is not blank, or "" when all are. */
  method Update(stack: seq<Entry>) returns (shown: string)
    ensures shown == Displayed(stack)
    ensures shown == "" || exists k :: 0 <= k < |stack| && shown == stack[k].text && !IsBlank(shown)
  {
    var i := |stack|;
    while i > 0
      invariant 0 <= i <= |stack|
      invariant forall j :: i <= j < |stack| ==> IsBlank(stack[j].text)
    {
      i := i - 1;
      if FirstNotSpace(stack[i].text) >= 0 {
        LastVisibleUnique(stack, i);
        return stack[i].text;
      }
    }
    LastVisibleUnique(stack, -1);
    return "";
  }

  function Tokens(stack: seq<Entry>): set<nat>
  {
    set e | e in stack :: e.token
  }

  /** Tokens are unique and below the next one to hand out, and the bar
      shows what the stack says it should. */
  ghost predicate Valid(info: Info)
  {
    && Tokened(info.stack, info.nextToken)
    && info.shown == Displayed(info.stack)
  }

  /** Tokens are unique and below `next`. */
  ghost predicate Tokened(stack: seq<Entry>, next: nat)
  {
    && (forall i, j :: 0 <= i < j < |stack| ==> stack[i].token != stack[j].token)
    && (forall i :: 0 <= i < |stack| ==> stack[i].token < next)
  }

  /** Removing the entry at `i` removes its token and nothing else. */
  lemma RemoveAt(stack: seq<Entry>, next: nat, i: nat)
    requires Tokened(stack, next) && i < |stack|
    ensures Tokened(stack[..i] + stack[i + 1..], next)
    ensures Tokens(stack[..i] + stack[i + 1..]) == Tokens(stack) - {stack[i].token}
  {
    var rest := stack[..i] + stack[i + 1..];
    assert forall j :: 0 <= j < |rest| ==> rest[j] == stack[if j < i then j else j + 1];
    forall t | t in Tokens(stack) - {stack[i].token}
      ensures t in Tokens(rest)
    {
      var e :| e in stack && e.token == t;
      var k :| 0 <= k < |stack| && stack[k] == e;
      assert e == rest[if k < i then k else k - 1];
    }
  }

  /** `Status(hwnd)`: an empty stack, and the bar shows "". */
  function NewStatus(): (info: Info)
    ensures Valid(info)
    ensures info.stack == [] && info.shown == ""
  {
    Info([], "", 0)
  }

  /** The position of a token's entry. */
  function IndexOf(stack: seq<Entry>, token: nat): (i: nat)
    requires token in Tokens(stack)
    ensures i < |stack| && stack[i].token == token
    decreases |stack|
  {
    if stack[0].token == token then 0
    else
      assert token in Tokens(stack[1..]) by {
        var e :| e in stack && e.token == token;
        assert e != stack[0];
      }
      IndexOf(stack[1..], token) + 1
  }

  /** `State(info, text)` (what `Status::Set` returns): append the text as
      the newest entry under a fresh token, then update the bar. Returns
      the new info and the token. */
  function Push(info: Info, text: string): (r: (Info, nat))
    requires Valid(info)
    ensures Valid(r.0)
    ensures r.1 !in Tokens(info.stack)
    ensures r.0.stack == info.stack + [Entry(r.1, text)]
  {
    var token := info.nextToken;
    var stack := info.stack + [Entry(token, text)];
    (Info(stack, Displayed(stack), token + 1), token)
  }

  /** `~State`: erase exactly the token's entry, then update the bar. */
  function Erase(info: Info, token: nat): (r: Info)
    requires Valid(info) && token in Tokens(info.stack)
    ensures Valid(r)
    ensures Tokens(r.stack) == Tokens(info.stack) - {token}
    ensures |r.stack| == |info.stack| - 1
    ensures var i := IndexOf(info.stack, token);
      r.stack == info.stack[..i] + info.stack[i + 1..]
  {
    var i := IndexOf(info.stack, token);
    var stack := info.stack[..i] + info.stack[i + 1..];
    RemoveAt(info.stack, info.nextToken, i);
    Info(stack, Displayed(stack), info.nextToken)
  }

  /** `State::Set`: replace the text of the token's entry only, then
      update the bar. */
  function SetText(info: Info, token: nat, text: string): (r: Info)
    requires Valid(info) && token in Tokens(info.stack)
    ensures Valid(r)
    ensures Tokens(r.stack) == Tokens(info.stack)
    ensures |r.stack| == |info.stack|
    ensures forall j :: 0 <= j < |r.stack| ==>
      if info.stack[j].token == token then r.stack[j] == Entry(token, text) else r.stack[j] == info.stack[j]
  {
    var i := IndexOf(info.stack, token);
    var stack := info.stack[i := Entry(token, text)];
    assert Tokens(stack) == Tokens(info.stack) by {
      forall t | t in Tokens(info.stack)
        ensures t in Tokens(stack)
      {
        var e :| e in info.stack && e.token == t;
        var k :| 0 <= k < |info.stack| && info.stack[k] == e;
        assert stack[k].token == t;
      }
    }
    Info(stack, Displayed(stack), info.nextToken)
  }

  /** `State::Clear`: make the token's entry empty and leave every other
      entry as it was, then update the bar. */
  function Clear(info: Info, token: nat): (r: Info)
    requires Valid(info) && token in Tokens(info.stack)
    ensures Valid(r)
    ensures Tokens(r.stack) == Tokens(info.stack)
    ensures |r.stack| == |info.stack|
    ensures forall j :: 0 <= j < |r.stack| ==>
      if info.stack[j].token == token then r.stack[j] == Entry(token, "") else r.stack[j] == info.stack[j]
  {
    SetText(info, token, "")
  }

  /** A blank entry never shows: removing it does not change the bar. */
  lemma BlankEntryInvisible(stack: seq<Entry>, i: nat)
    requires i < |stack| && IsBlank(stack[i].text)
    ensures Displayed(stack[..i] + stack[i + 1..]) == Displayed(stack)
  {
    var rest := stack[..i] + stack[i + 1..];
    assert forall j :: 0 <= j < |rest| ==> rest[j] == stack[if j < i then j else j + 1];
    var k := LastVisible(stack);
    if k < 0 {
      LastVisibleUnique(rest, -1);
    } else if k < i {
      LastVisibleUnique(rest, k);
    } else {
      assert k != i;
      LastVisibleUnique(rest, k - 1);
    }
  }

  /** Removing a position forgets what was stored there. */
  lemma RemoveUpdated(stack: seq<Entry>, i: nat, e: Entry)
    requires i < |stack|
    ensures stack[i := e][..i] + stack[i := e][i + 1..] == stack[..i] + stack[i + 1..]
  {
    assert stack[i := e][..i] == stack[..i];
    assert stack[i := e][i + 1..] == stack[i + 1..];
  }

  /** Clearing a token's entry shows on the bar what erasing it would: the
      newest non-blank entry other than it. */
  lemma ClearFallsBack(info: Info, token: nat)
    requires Valid(info) && token in Tokens(info.stack)
    ensures Clear(info, token).shown == Erase(info, token).shown
  {
    var i := IndexOf(info.stack, token);
    var cleared := info.stack[i := Entry(token, "")];
    var rest := info.stack[..i] + info.stack[i + 1..];
    assert Clear(info, token).shown == Displayed(cleared);
    assert Erase(info, token).shown == Displayed(rest);
    BlankEntryInvisible(cleared, i);
    RemoveUpdated(info.stack, i, Entry(token, ""));
  }

  /** A new non-blank message shows at once; a blank one leaves the bar as
      it was. */
  lemma PushShows(info: Info, text: string)
    requires Valid(info)
    ensures !IsBlank(text) ==> Push(info, text).0.shown == text
    ensures IsBlank(text) ==> Push(info, text).0.shown == info.shown
  {
    var stack := Push(info, text).0.stack;
    if IsBlank(text) {
      BlankEntryInvisible(stack, |info.stack|);
      assert stack[..|info.stack|] + stack[|info.stack| + 1..] == info.stack;
    }
  }

  /** A `State` that is constructed and then destroyed leaves the stack and
      the bar as they were. */
  lemma PushThenErase(info: Info, text: string)
    requires Valid(info)
    ensures Push(info, text).1 in Tokens(Push(info, text).0.stack)
    ensures Erase(Push(info, text).0, Push(info, text).1).stack == info.stack
    ensures Erase(Push(info, text).0, Push(info, text).1).shown == info.shown
  {
    var (pushed, token) := Push(info, text);
    assert pushed.stack[|info.stack|].token == token;
    assert token in Tokens(pushed.stack);
    var i := IndexOf(pushed.stack, token);
    assert forall j :: 0 <= j < |info.stack| ==> pushed.stack[j].token != token;
    assert i == |info.stack|;
    assert pushed.stack[..i] + pushed.stack[i + 1..] == info.stack;
  }
}

=== FILE: utility.dfy ===
/** `ice::scope_exit`: a guard that invokes its handler when destroyed,
    unless it was moved from. Copying is deleted, so the only way to get a
    second guard for the same handler is a move, which disarms the source. */
module Utility {

  /** One guard object: whether its destructor will invoke the handler
      (`invoke_`), and whether the object is still in scope. */
  datatype Guard = Guard(armed: bool, alive: bool)

  /** The weight of a guard in the count of pending handler calls. */
  function Pending(g: Guard): nat
  {
    if g.armed && g.alive then 1 else 0
  }

  /** `scope_exit(handler)`, also what `on_scope_exit` returns: armed. */
  function Construct(): (g: Guard)
    ensures g.armed && g.alive
    ensures Pending(g) == 1
  {
    Guard(true, true)
  }

  /** The move constructor: the new guard takes over the source's flag and
      the source is disarmed; together they hold as many pending calls as
      the source did. Returns the new guard and the source after the move. */
  function MoveConstruct(src: Guard): (r: (Guard, Guard))
    requires src.alive
    ensures r.0.alive && r.0.armed == src.armed
    ensures r.1.alive && !r.1.armed
    ensures Pending(r.0) + Pending(r.1) == Pending(src)
  {
    (Guard(src.armed, true), src.(armed := false))
  }

  /** The destructor: the handler is invoked exactly when the guard is
      armed. Returns the guard after destruction and whether it invoked. */
  function Destroy(g: Guard): (r: (Guard, bool))
    requires g.alive
    ensures r.1 <==> g.armed
    ensures !r.0.alive
    ensures Pending(r.0) == 0 && Pending(g) == (if r.1 then 1 else 0)
  {
    (g.(alive := false), g.armed)
  }

  /** Every guard object that ever held one handler, and how many times
      the handler has run. */
  datatype Guards = Guards(objs: seq<Guard>, fired: nat)

  /** Right after `on_scope_exit`: one armed guard, nothing run. */
  const Start: Guards := Guards([Construct()], 0)

  /** Something done to the guards: move-construct a new guard from object
      `from`, or let object `obj` go out of scope. */
  datatype Op = Move(from: nat) | Drop(obj: nat)

  /** An operation on an object that does not exist or is out of scope
      cannot be written in C++, so it changes nothing here. */
  function Apply(gs: Guards, op: Op): Guards
  {
    match op
    case Move(i) =>
      if i < |gs.objs| && gs.objs[i].alive then
        var (made, src) := MoveConstruct(gs.objs[i]);
        Guards(gs.objs[i := src] + [made], gs.fired)
      else gs
    case Drop(i) =>
      if i < |gs.objs| && gs.objs[i].alive then
        var (gone, invoked) := Destroy(gs.objs[i]);
        Guards(gs.objs[i := gone], gs.fired + if invoked then 1 else 0)
      else gs
  }

  function Run(gs: Guards, ops: seq<Op>): Guards
    decreases |ops|
  {
    if ops == [] then gs else Run(Apply(gs, ops[0]), ops[1..])
  }

  /** The number of live armed guards. */
  function Armed(objs: seq<Guard>): nat
    decreases |objs|
  {
    if objs == [] then 0 else Armed(objs[..|objs| - 1]) + Pending(objs[|objs| - 1])
  }

  /** Replacing one guard changes the count by the difference of weights. */
  lemma {:induction false} ArmedUpdate(objs: seq<Guard>, i: nat, g: Guard)
    requires i < |objs|
    ensures Armed(objs[i := g]) + Pending(objs[i]) == Armed(objs) + Pending(g)
    decreases |objs|
  {
    var n := |objs| - 1;
    if i < n {
      ArmedUpdate(objs[..n], i, g);
      assert objs[i := g][..n] == objs[..n][i := g];
    } else {
      assert objs[i := g][..n] == objs[..n];
    }
  }

  /** Appending a guard adds its weight. */
  lemma ArmedAppend(objs: seq<Guard>, g: Guard)
    ensures Armed(objs + [g]) == Armed(objs) + Pending(g)
  {
    assert (objs + [g])[..|objs|] == objs;
  }

  /** The handler has either run once, or exactly one live guard will run it. */
  ghost predicate OnceInv(gs: Guards)
  {
    Armed(gs.objs) + gs.fired == 1
  }

  /** Every operation keeps the handler pending in exactly one place. */
  lemma ApplyKeepsOnce(gs: Guards, op: Op)
    requires OnceInv(gs)
    ensures OnceInv(Apply(gs, op))
  {
    match op
    case Move(i) =>
      if i < |gs.objs| && gs.objs[i].alive {
        var (made, src) := MoveConstruct(gs.objs[i]);
        ArmedUpdate(gs.objs, i, src);
        ArmedAppend(gs.objs[i := src], made);
      }
    case Drop(i) =>
      if i < |gs.objs| && gs.objs[i].alive {
        var (gone, invoked) := Destroy(gs.objs[i]);
        ArmedUpdate(gs.objs, i, gone);
      }
  }

  lemma {:induction false} RunKeepsOnce(gs: Guards, ops: seq<Op>)
    requires OnceInv(gs)
    ensures OnceInv(Run(gs, ops))
    decreases |ops|
  {
    if ops != [] {
      ApplyKeepsOnce(gs, ops[0]);
      RunKeepsOnce(Apply(gs, ops[0]), ops[1..]);
    }
  }

  /** With every guard out of scope the count of live armed guards is zero. */
  lemma {:induction false} ArmedAllGone(objs: seq<Guard>)
    requires forall i :: 0 <= i < |objs| ==> !objs[i].alive
    ensures Armed(objs) == 0
    decreases |objs|
  {
    if objs != [] {
      ArmedAllGone(objs[..|objs| - 1]);
    }
  }

  /** Across any moves and destructions starting from one `on_scope_exit`,
      the handler never runs twice, and once every guard is out of scope it
      has run exactly once. */
  lemma HandlerRunsOnce(ops: seq<Op>)
    ensures Run(Start, ops).fired <= 1
    ensures (forall i :: 0 <= i < |Run(Start, ops).objs| ==> !Run(Start, ops).objs[i].alive) ==> Run(Start, ops).fired == 1
  {
    assert Armed(Start.objs) == 1 by {
      assert Start.objs[..0] == [];
    }
    RunKeepsOnce(Start, ops);
    var gs := Run(Start, ops);
    if forall i :: 0 <= i < |gs.objs| ==> !gs.objs[i].alive {
      ArmedAllGone(gs.objs);
    }
  }
}
